=== FILE: README.md ===
# Checkers board engine and move request handling, in Dafny

A functional model of a small web checkers game. There are two parts.

- **The `Board` class.** This is the engine of checkers.cpp and checkers.h, written as a pure state machine:
  - the 8×8 grid of piece types (`Empty`, `Black`, `White`);
  - the fixed colour pattern `(i + j) % 2`;
  - the move history, the turn flag and the game state.

  The model covers:
  - the constructor and `initPieces`;
  - the legality test `valid_move` and its mandatory-capture scan `canCapture`;
  - move application: `updatePieces`, `removeCapturedPiece`, `recordMove`, `toggleTurn`, `updateBoard` and `make_move`;
  - terminal detection: `checkmate` and `updateGameState`;
  - `undoLastMove`;
  - the text codec `boardToString` / `stringToBoard`.

  A C++ exception becomes an `Outcome` that carries the board left behind and the `Fault` thrown.
- **The request handling of the `update_board` CGI program.** This covers:
  - `getFormValue`: key lookup plus `+` and `%XX` decoding;
  - `sanitizeInput`: a character filter with a length cap;
  - the conversion in `main` of one-based row labels and zero-based column labels to indices, with its range check;
  - the sequence of Board calls `main` makes for one request, written as `Cgi.ProcessRequest`.

`std::stoi` is used both by the codec and by the decoder. It is modelled with the full leniency of `strtol` (`Strtol.Stoi`):
- leading white space is skipped;
- an optional sign is read;
- in base 16, an optional `0x` prefix is read;
- trailing text is ignored;
- a missing digit is reported, and so is a value that does not fit a 32-bit `int`.

So a token such as `"1x"` reads as 1, just as it does in the program.

Files:
- `wrappers.dfy`: `Option` and `Result`.
- `checkers.dfy`: the data model.
- `rules.dfy`: legality and terminal detection.
- `engine.dfy`: setup, moves and undo.
- `strtol.dfy`: stoi, and the decimal text of a number as the page's option labels write it.
- `codec.dfy`: the board text format.
- `cgi.dfy`: update_board.cpp.

### Surprises in the code

The model follows the code as written.
- **Playable squares.** Pieces stand on squares whose pattern value is 0, that is where `(i + j)` is even (checkers.cpp:20, checkers.cpp:123).
- **Empty board.** `updateGameState` tests for missing white pieces first, so a board with no pieces at all is `BLACK_WIN` (checkers.cpp:346-347).
- **No jumps.** `valid_move` rejects every move that is not a single diagonal step (checkers.cpp:111). So the jump branch, with its side effect of clearing the jumped square, is unreachable. A side with any capture available therefore has no valid move at all, and `updateGameState` judges the position a draw.
- **Whose moves are judged.** `updateGameState` runs before `toggleTurn` (checkers.cpp:88-89). It judges the side the turn flag names before the flip. Nothing ties that flag to the piece moved: neither `valid_move` nor `make_move` compares them. `main` builds a fresh board, white to move, for every request (update_board.cpp:135), so after a black move the state is judged for white.
- **Trailing comma.** getline yields no token for a comma at the end of the text, so stringToBoard accepts 64 tokens followed by ',' (checkers.cpp:198-201).
- **Field lookup.** `getFormValue` finds `key=` anywhere in the body, also inside another field's name: in `ab=1&b=2` the value of `b` is `1`.

## Model

| member | source | states |
|---|---|---|
| Checkers.PatternGrid | checkers.h:51-59 | the constructor's pattern is 8×8, and a square holds 0 exactly when row + column is even, 1 exactly when it is odd |
| Checkers.PatternIsColour | checkers.h:54-57 | the pattern value the constructor stores at a square is the parity of row + column that the move rules test |
| Checkers.NewBoard | checkers.h:51-59 | a new board has every square empty, no history, state Ongoing and white to move |
| Checkers.IsGameOver | checkers.h:81 | the game is over exactly when the state is WhiteWin, BlackWin or Draw |
| Checkers.SetType | checkers.h:22-30 | after setType the square reads back the type set, and no other square changes |
| Checkers.Code | checkers.h:24 | the enum value of a piece type is at most 2 |
| Checkers.FromCode | checkers.cpp:223-226 | the cast from an int yields a piece type exactly for 0, 1 and 2 |
| Checkers.CodeBijection | checkers.h:24 | the enum order NONE, BLACK, WHITE is a bijection with the values 0, 1, 2 |
| Rules.CanCaptureIffLanding | checkers.cpp:307-331 | canCapture holds iff the square is on the board and occupied, and some landing square two diagonal steps away is empty with a piece of the opposite colour halfway |
| Rules.ValidMoveEffect | checkers.cpp:97-163 | valid_move, branch by branch, never changes the grid: its jump branch, which would clear the jumped square, cannot be reached |
| Rules.ValidMove | checkers.cpp:97-163 | valid_move is true iff both ends are on the board, the source is occupied and the target empty, the move is one diagonal step forward for its colour onto a pattern-0 square, and no piece of the mover's type can capture |
| Rules.ScanForCapture | checkers.cpp:144-155 | the mandatory-capture scan, which stops at the first hit, finds a capture iff some piece of the given type can capture |
| Rules.Checkmate | checkers.cpp:242-254 | checkmate, which returns as soon as both colours are seen, is true iff white or black has no piece left |
| Rules.UpdateGameState | checkers.cpp:333-377 | BlackWin iff no white piece (an empty board included); WhiteWin iff white but no black; Draw iff both remain and the mover has no valid move within ±2; Ongoing otherwise |
| Rules.HasValidMovesIffStep | checkers.cpp:351-369 | the side has a valid move within ±2 iff none of its pieces can capture and one of them has an empty pattern-0 square diagonally ahead |
| Rules.DrawIffStuck | checkers.cpp:333-377 | with both colours present, the state is Draw iff the mover has a capture available or no forward step |
| Engine.InitPieces | checkers.cpp:16-33 | initPieces sets pattern-0 squares of rows 0–2 to black and of rows 5–7 to white, and leaves every other square and the rest of the board as they were |
| Engine.InitialLayout | checkers.cpp:16-33 | on a fresh board, black stands exactly on the pattern-0 squares of rows 0–2 and white exactly on those of rows 5–7 |
| Engine.InitialRow | checkers.cpp:16-33 | each row of the initial layout has its colour on the pattern-0 squares and nothing on the others; rows 3 and 4 are empty |
| Engine.InitialCounts | checkers.cpp:16-33 | the initial layout has 12 black pieces, 12 white pieces and 40 empty squares |
| Engine.UpdatePieces | checkers.cpp:10-14 | the target takes the source's type, the source becomes empty, and nothing else changes |
| Engine.RemoveCapturedPiece | checkers.cpp:406-410 | the square halfway between the two ends is cleared, and nothing else changes |
| Engine.Moved | checkers.cpp:76-84 | the grid after a move: the piece is moved, the halfway square is cleared iff the row distance is 2, and no other square changes |
| Engine.RecordMove | checkers.cpp:379-381 | exactly one record is appended to the history, and nothing else changes |
| Engine.ToggleTurn | checkers.cpp:469-470 | the turn flag flips, and nothing else changes |
| Engine.UpdateBoard | checkers.cpp:68-95 | off-board coordinates throw with the board unchanged; otherwise one record is appended, the turn flips once, the state is judged for the side the turn flag names before the flip, and the grid is the moved grid, or the old grid with SaveFailed if saving fails |
| Engine.MakeMove | checkers.cpp:166-170 | an invalid move changes nothing; a valid one appends one non-capture record, flips the turn once, judges the state of the moved grid for the side the flag named before the flip, and changes exactly the two squares (or none when the save fails) |
| Engine.UndoLastMove | checkers.cpp:383-404 | an empty history gives false and no change; otherwise one record is popped, the target's piece goes back to the source, the target is emptied, a capture puts the opposite colour back halfway, and the turn and state are untouched |
| Engine.UndoReversesUpdate | checkers.cpp:383-404 | after a saved updateBoard that moves a piece to an empty square, by a step or by jumping an opposing piece, undo restores the grid and the history; the turn and the state stay as updateBoard left them |
| Engine.UndoReversesMakeMove | checkers.cpp:383-404 | undoing a successful make_move restores the grid and the history |
| Engine.UndoAfterFailedSaveLosesPiece | checkers.cpp:91-93 | after a failed save, which restores only the grid, undo still runs on the recorded move and empties the moving piece's source square |
| Strtol.Stoi | update_board.cpp:116 | stoi yields an int in the 32-bit range, and reports no conversion exactly when no leading integer can be read |
| Strtol.DecimalRoundTrip | update_board.cpp:116-119 | stoi reads back the decimal text of every non-negative int |
| Strtol.TrailingCharactersIgnored | checkers.cpp:222 | stoi accepts "1x" as 1 |
| Strtol.LeadingSpaceSkipped | checkers.cpp:222 | stoi accepts " 2" as 2 |
| Strtol.HexPairRoundTrip | update_board.cpp:53-54 | base-16 stoi reads back every byte written as two hexadecimal digits |
| BoardCodec.BoardToString | checkers.cpp:172-183 | the text is 127 characters long, holding the 64 squares' digits 0/1/2 in row-major order at the even positions and commas in between |
| BoardCodec.BoardToStringLoop | checkers.cpp:172-183 | the nested loops with their "comma unless empty" test build exactly that text |
| BoardCodec.SplitTokens | checkers.cpp:198-201 | tokenising with getline on ',' yields tokens that contain no comma |
| BoardCodec.SplitTrailing | checkers.cpp:198-201 | a comma appended to a text that does not already end in one adds no token |
| BoardCodec.SplitJoin | checkers.cpp:198-201 | tokenising the comma-join of comma-free tokens whose last token is not empty gives those tokens back |
| BoardCodec.ParsePiece | checkers.cpp:221-229 | a token is accepted iff stoi reads it with a value in 0..2, and the piece is the one with that enum value |
| BoardCodec.ParseCells | checkers.cpp:216-236 | all cells are read iff every token parses; otherwise the first bad token's fault is reported |
| BoardCodec.StringToGrid | checkers.cpp:185-240 | an empty string and a token count other than 64 are rejected first; the string is accepted iff all 64 tokens parse, and then each square holds its token's piece |
| BoardCodec.StringToBoard | checkers.cpp:185-240 | on a throw the board is left unchanged; on success only the pieces are replaced |
| BoardCodec.RoundTrip | checkers.cpp:172-240 | stringToBoard(boardToString()) restores the identical grid |
| BoardCodec.TrailingCommaAccepted | checkers.cpp:185-240 | a board text followed by one comma is still read back as the same grid |
| BoardCodec.SixtyThreeTokensRejected | checkers.cpp:204-206 | dropping the first token of a board text is rejected as a dimension mismatch |
| BoardCodec.FiveRejected | checkers.cpp:223-225 | a board text whose first token is "5" is rejected as an invalid piece value |
| Cgi.Find | update_board.cpp:41 | string::find returns the first occurrence at or after the start position, and there is none before it |
| Cgi.RawValue | update_board.cpp:40-48 | there is no raw value iff "key=" never occurs; otherwise the value starts just after the first occurrence of "key=" and runs to the next '&' or the end of the body |
| Cgi.KeyInsideAnotherKey | update_board.cpp:40-41 | the search for "key=" also matches inside another field's name: in ab=1&b=2 the value of b is 1 |
| Cgi.PercentDecode | update_board.cpp:50-63 | the decoded value is no longer than the raw value, and a failure is always the escape error |
| Cgi.ShortPercentCopied | update_board.cpp:52-62 | a '%' with fewer than two characters after it is copied as it is |
| Cgi.FailsOnlyAtBadEscape | update_board.cpp:52-55 | decoding fails only where a '%' with two more characters after it holds a pair base-16 stoi cannot read |
| Cgi.GetFormValue | update_board.cpp:39-64 | an absent key gives "", a present one its decoded raw value, never longer than the body |
| Cgi.FormEncode | checkers.js:52-55 | the form encoding URLSearchParams applies to a byte string contains no '&'; it is the reference encoder that getFormValue's decoder inverts |
| Cgi.DecodeEncode | update_board.cpp:50-63 | decoding the form encoding of any byte string gives back that string |
| Cgi.RawValueAtFront | update_board.cpp:40-48 | a field at the front of the body runs to the next '&' or the end |
| Cgi.FormValueRoundTrip | update_board.cpp:39-64 | a field sent as key=<encoded value> and followed by '&' or the end reads back as the value |
| Cgi.Filter | update_board.cpp:66-72 | the kept text contains exactly the allowed characters of the input and is no longer than it |
| Cgi.Sanitize | update_board.cpp:66-77 | sanitizeInput throws iff more than 4096 characters are kept; otherwise its output is the input's alphanumerics, ',', '-' and '_', each occurrence kept in input order, and nothing else |
| Cgi.FilterConcat | update_board.cpp:68-72 | filtering a concatenation is concatenating the filtered parts, so order is kept and each character is kept or dropped on its own |
| Cgi.FilterAllowed | update_board.cpp:68-72 | a string of allowed characters passes through unchanged |
| Cgi.SanitizeIdempotent | update_board.cpp:66-77 | sanitizing twice gives the same as sanitizing once |
| Cgi.SanitizeKeepsBoardString | update_board.cpp:112 | a board text written by boardToString passes sanitizeInput unchanged |
| Cgi.ReadForm | update_board.cpp:101-112 | the five fields are read iff none of their escapes fails; each field of the form holds the decoded value of the key of the same name; the board field is no longer than the body |
| Cgi.FieldValue | update_board.cpp:116-119 | an empty field gives -1; otherwise it converts iff stoi reads it, to stoi's value less the offset |
| Cgi.Coordinates | update_board.cpp:116-133 | the move is accepted iff all four fields are non-empty and read by stoi, with rows in 1..8 and columns in 0..7; the indices are then one less than the row labels and equal to the column labels |
| Cgi.LabelsConvert | update_board.cpp:116-133 | the option values the move form offers (rows "1" to "8", columns "0" to "7", checkers.cpp:261-299) convert back to the squares they name |
| Cgi.Respond | update_board.cpp:135-152 | with no board text the answer is the initial layout; otherwise it succeeds iff the text parses, the move is valid and the save succeeds, and it is then the text of the moved grid; a parse failure, an invalid move and a failed save each give their own error |
| Cgi.HandleForm | update_board.cpp:112-152 | sanitizing is checked first, then the coordinates, then the Board calls |
| Cgi.ProcessRequest | update_board.cpp:99-159 | a failed field read is an escape error; otherwise the request is handled from the fields read |
| Cgi.ResponseReadsBack | update_board.cpp:135-152 | every board text the program answers with parses back with stringToBoard and passes sanitizeInput unchanged |
| Cgi.ShortBodyNeverTooLong | update_board.cpp:73-75 | for a body of at most 4096 characters, sanitizeInput's length check never fires |
| Cgi.EmptyBodyRejected | update_board.cpp:96-133 | a body naming no move is answered with the range error, never with a board |
| Cgi.MoveRequestApplies | update_board.cpp:99-152 | posting back the shown board text with the labels of a valid move answers with the text of the board after that move |

## Left out

- saveState and loadState (checkers.cpp:412-467) write and read a file. Whether saveState succeeds is the `saved` parameter of `Engine.UpdateBoard`; loadState is never called by the request path.
- The static mutex in updateBoard only serialises threads. The model is sequential.
- The HTML output is not modelled: printBoard, interface, the turn indicator printed by toggleTurn, and the error messages printed by main, and the diagnostic logging to `cerr` (update_board.cpp:92-93, 107-113, 122-125, 141, 149, 156; checkers.cpp:447). A response is modelled as the board text printBoard embeds, or the reason for the error.
- getPostData is not modelled, because it reads the environment and standard input. `Cgi.ProcessRequest` takes the body it returns; `Cgi.ShortBodyNeverTooLong` uses the 4096-byte cap it enforces.
- main.cpp is the CGI program that serves the starting page: a fresh board, initPieces, printBoard (main.cpp:22-24). Its HTML is not modelled; its board text is the one `Cgi.Respond` gives for an empty board field.
- checkers.js is the browser script. Only its URLSearchParams encoding (checkers.js:52-55) is modelled, as `Cgi.FormEncode`; the page scripting around it is not.
- Cgi.Coordinates: `stoi(...) - 1` on INT_MIN overflows a C++ int. Unbounded integers make the result -2147483649. It is rejected by the range check, which the wrapped value INT_MAX would also fail.
- Cgi.PercentDecode: the decoded byte is `static_cast<char>` of stoi's value. It is modelled as that value modulo 256. Characters are taken as byte values, and the signedness of `char` is not modelled.
- Cgi.Sanitize: `isalnum` is the C locale's. Characters outside ASCII are never alphanumeric, whereas the real call on a negative `char` is undefined.
- Cgi.FormValueRoundTrip: it is stated for a field at the front of the body. A later field is found by the same search only when its `key=` does not also occur earlier in the body.

=== FILE: cgi.dfy ===
/** The request handling of the update_board CGI program: reading a field
    of the url-encoded POST body, sanitising the board field, turning the
    one-based row labels and zero-based column labels into board indices,
    and the sequence of Board calls `main` makes for one move request. */
module Cgi {
  import opened Wrappers
  import opened Checkers
  import opened Rules
  import opened Engine
  import opened BoardCodec
  import opened Strtol

  /** Why a request is answered with an error message instead of a board:
      the exception the inner `try` of `main` catches. */
  datatype RequestError =
    | BadEscape                     // getFormValue: stoi on a "%xx" escape threw
    | InputTooLong                  // sanitizeInput: more than MAX_CONTENT_LENGTH kept
    | BadCoordinate(e: StoiError)   // stoi on a coordinate field threw
    | CoordinatesOutOfRange         // a coordinate is off the board (or absent)
    | BoardRejected(f: Fault)       // stringToBoard or updateBoard threw
    | InvalidMove                   // valid_move said no

  // ---------------------------------------------------------------------
  // Substring search
  // ---------------------------------------------------------------------

  /** `pat` occurs in `s` starting at index `i`. */
  predicate OccursAt(s: string, pat: string, i: nat) {
    i + |pat| <= |s| && s[i..i + |pat|] == pat
  }

  /** std::string::find(pat, from): the first occurrence at or after `from`,
      or None for npos. */
  function Find(s: string, pat: string, from: nat): (r: Option<nat>)
    ensures r.Some? ==> from <= r.value && OccursAt(s, pat, r.value)
    ensures forall i: nat :: from <= i && (r.None? || i < r.value) ==> !OccursAt(s, pat, i)
    decreases |s| - from
  {
    if from + |pat| > |s| then None
    else if s[from..from + |pat|] == pat then Some(from)
    else Find(s, pat, from + 1)
  }

  // ---------------------------------------------------------------------
  // getFormValue
  // ---------------------------------------------------------------------

  /** `v` is the raw value found for `key` at `at`: "key=" first occurs at
      `at`, and `v` follows it up to the next '&' or the end of `data`. */
  predicate ValueSpan(data: string, key: string, at: nat, v: string) {
    var pos := at + |key| + 1;
    && OccursAt(data, key + "=", at)
    && (forall i: nat :: i < at ==> !OccursAt(data, key + "=", i))
    && pos + |v| <= |data| && data[pos..pos + |v|] == v
    && (pos + |v| == |data| || data[pos + |v|] == '&')
  }

  /** The undecoded value of `key`: the text after the first "key=" up to
      the next '&' or the end; None when "key=" does not occur at all. */
  function RawValue(data: string, key: string): (r: Option<string>)
    ensures r.None? <==> forall i: nat :: !OccursAt(data, key + "=", i)
    ensures r.Some? ==> '&' !in r.value && |r.value| <= |data|
    ensures r.Some? ==> exists at: nat :: ValueSpan(data, key, at, r.value)
  {
    match Find(data, key + "=", 0)
    case None => None
    case Some(at) =>
      var pos := at + |key| + 1;
      var end := match Find(data, "&", pos) case None => |data| case Some(e) => e;
      forall i | pos <= i < end
        ensures data[i] != '&'
      {
        assert !OccursAt(data, "&", i) && data[i..i + 1] == [data[i]];
      }
      assert end < |data| ==> data[end..end + 1] == "&";
      assert ValueSpan(data, key, at, data[pos..end]);
      Some(data[pos..end])
  }

  /** find does not respect field boundaries: the key "b" is found inside
      the field "ab=1", so its value there is read instead of "2". */
  lemma KeyInsideAnotherKey()
    ensures RawValue("ab=1&b=2", "b") == Some("1")
  {
    var data := "ab=1&b=2";
    assert data[0..2][1] != "b="[1];
    assert data[1..3] == "b=";
    assert Find(data, "b" + "=", 0) == Some(1);
    assert data[3] == '1' && data[3..4] == [data[3]];
    assert data[4] == '&' && data[4..5] == [data[4]];
    assert Find(data, "&", 3) == Some(4);
    assert data[3..4] == "1";
  }

  /** `static_cast<char>` of an int: the byte it leaves, modulo 256. */
  function ByteChar(n: int): char {
    (n % 256) as char
  }

  /** The decoding loop of getFormValue: '+' is a space, '%' followed by at
      least two more characters is the byte stoi reads from those two in
      base 16 (both are consumed whatever stoi read), anything else is
      copied. stoi throwing on an escape aborts the request. */
  function PercentDecode(v: string): (r: Result<string, RequestError>)
    ensures r.Success? ==> |r.value| <= |v|
    ensures r.Failure? ==> r.error == BadEscape
    decreases |v|
  {
    if |v| == 0 then Success("")
    else if v[0] == '%' && 2 < |v| then
      match Stoi(v[1..3], 16)
      case Failure(_) => Failure(BadEscape)
      case Success(n) =>
        var rest :- PercentDecode(v[3..]);
        Success([ByteChar(n)] + rest)
    else
      var rest :- PercentDecode(v[1..]);
      Success([if v[0] == '+' then ' ' else v[0]] + rest)
  }

  /** A '%' with fewer than two characters after it is no escape: it is
      copied, and the rest is decoded as usual. */
  lemma ShortPercentCopied(t: string)
    requires |t| <= 1
    ensures PercentDecode(t).Success? && PercentDecode("%" + t) == Success("%" + PercentDecode(t).value)
  {
    assert ("%" + t)[1..] == t;
  }

  /** At index `i` of `v` stands a '%' with two more characters after it
      that stoi cannot read in base 16. */
  predicate BadEscapeAt(v: string, i: nat) {
    i + 2 < |v| && v[i] == '%' && Stoi(v[i + 1..i + 3], 16).Failure?
  }

  /** A bad escape in a suffix is a bad escape of the whole text. */
  lemma BadEscapeShift(v: string, k: nat, i: nat)
    requires k <= |v| && BadEscapeAt(v[k..], i)
    ensures BadEscapeAt(v, k + i)
  {
    assert v[k..][i + 1..i + 3] == v[k + i + 1..k + i + 3];
  }

  /** Decoding fails only where a '%' with two more characters after it
      holds a pair stoi cannot read in base 16. */
  lemma {:induction false} FailsOnlyAtBadEscape(v: string)
    ensures PercentDecode(v).Failure? ==> exists i: nat :: BadEscapeAt(v, i)
    decreases |v|
  {
    if PercentDecode(v).Success? || |v| == 0 {
      return;
    }
    var k := if v[0] == '%' && 2 < |v| then 3 else 1;
    if k == 3 && Stoi(v[1..3], 16).Failure? {
      assert BadEscapeAt(v, 0);
    } else {
      FailsOnlyAtBadEscape(v[k..]);
      var i: nat :| BadEscapeAt(v[k..], i);
      BadEscapeShift(v, k, i);
    }
  }

  /** getFormValue(data, key): "" when the key is absent, otherwise its
      decoded value, which is never longer than the body it came from. */
  function GetFormValue(data: string, key: string): (r: Result<string, RequestError>)
    ensures RawValue(data, key).None? ==> r == Success("")
    ensures RawValue(data, key).Some? ==> r == PercentDecode(RawValue(data, key).value)
    ensures r.Success? ==> |r.value| <= |data|
    ensures r.Failure? ==> r.error == BadEscape
  {
    match RawValue(data, key)
    case None => Success("")
    case Some(raw) => PercentDecode(raw)
  }

  // ---------------------------------------------------------------------
  // The form encoding a browser applies, as the inverse of getFormValue
  // ---------------------------------------------------------------------

  /** isalnum in the C locale. */
  predicate IsAlnum(c: char) {
    'A' <= c <= 'Z' || 'a' <= c <= 'z' || '0' <= c <= '9'
  }

  /** The bytes the application/x-www-form-urlencoded serializer (section
      5.2 of the WHATWG URL Standard) leaves as they are. */
  predicate Unreserved(c: char) {
    IsAlnum(c) || c == '*' || c == '-' || c == '.' || c == '_'
  }

  predicate IsByteString(s: string) {
    forall i :: 0 <= i < |s| ==> s[i] as int < 256
  }

  /** The url-encoded form of one byte. */
  function EncodeByte(c: char): (e: string)
    requires c as int < 256
    ensures '&' !in e && |e| > 0
  {
    if Unreserved(c) then [c]
    else if c == ' ' then "+"
    else
      var h := HexPair(c as int);
      assert DigitValue(h[0]) < 16 && DigitValue(h[1]) < 16;
      "%" + h
  }

  /** A byte string url-encoded for a form body. */
  function FormEncode(s: string): (e: string)
    requires IsByteString(s)
    ensures '&' !in e
  {
    if |s| == 0 then "" else EncodeByte(s[0]) + FormEncode(s[1..])
  }

  /** Decoding one encoded byte in front of any text gives that byte in
      front of the decoded text. */
  lemma DecodeByte(c: char, t: string)
    requires c as int < 256
    requires PercentDecode(t).Success?
    ensures PercentDecode(EncodeByte(c) + t) == Success([c] + PercentDecode(t).value)
  {
    if !Unreserved(c) && c != ' ' {
      DecodeEscape(c, t);
    } else {
      var v := EncodeByte(c) + t;
      assert v[0] == (if c == ' ' then '+' else c) && v[1..] == t;
    }
  }

  /** An escaped byte decodes through base-16 stoi back to itself. */
  lemma DecodeEscape(c: char, t: string)
    requires c as int < 256 && !Unreserved(c) && c != ' '
    requires PercentDecode(t).Success?
    ensures PercentDecode(EncodeByte(c) + t) == Success([c] + PercentDecode(t).value)
  {
    var h := HexPair(c as int);
    HexPairRoundTrip(c as int);
    EscapeDecodes(h, t, c as int);
    assert EncodeByte(c) == "%" + h;
    ByteCharOfByte(c);
  }

  /** Casting a byte value back to char gives the character it came from. */
  lemma ByteCharOfByte(c: char)
    requires c as int < 256
    ensures ByteChar(c as int) == c
  {
    assert c as int % 256 == c as int;
  }

  /** A well-formed escape contributes its byte and decoding resumes after it. */
  lemma EscapeDecodes(h: string, t: string, n: int)
    requires |h| == 2 && Stoi(h, 16) == Success(n)
    requires PercentDecode(t).Success?
    ensures PercentDecode("%" + h + t) == Success([ByteChar(n)] + PercentDecode(t).value)
  {
    var v := "%" + h + t;
    assert v[0] == '%' && v[1..3] == h && v[3..] == t;
  }

  /** Decoding what the form encoder wrote gives back the original bytes. */
  lemma {:induction false} DecodeEncode(s: string)
    requires IsByteString(s)
    ensures PercentDecode(FormEncode(s)) == Success(s)
  {
    if |s| > 0 {
      DecodeEncode(s[1..]);
      DecodeByte(s[0], FormEncode(s[1..]));
      assert [s[0]] + s[1..] == s;
    }
  }

  /** The raw value of a field at the front of the body runs to the next
      '&' or the end. */
  lemma RawValueAtFront(key: string, enc: string, rest: string)
    requires '&' !in enc
    requires rest == "" || rest[0] == '&'
    ensures RawValue(key + "=" + enc + rest, key) == Some(enc)
  {
    var data := key + "=" + enc + rest;
    var k := key + "=";
    assert data[0..|k|] == k;
    assert Find(data, k, 0) == Some(0);
    var pos := |k|;
    forall i | pos <= i < pos + |enc|
      ensures !OccursAt(data, "&", i)
    {
      assert data[i] == enc[i - pos] && data[i..i + 1] == [data[i]];
    }
    if rest == "" {
      assert Find(data, "&", pos).None?;
      assert data[pos..|data|] == enc;
    } else {
      assert OccursAt(data, "&", pos + |enc|);
      assert Find(data, "&", pos) == Some(pos + |enc|);
      assert data[pos..pos + |enc|] == enc;
    }
  }

  /** A field the browser sent as "key=<encoded value>" at the front of the
      body, followed by the end of the body or by the next field, reads back
      as the value it encoded. */
  lemma FormValueRoundTrip(key: string, value: string, rest: string)
    requires IsByteString(value)
    requires rest == "" || rest[0] == '&'
    ensures GetFormValue(key + "=" + FormEncode(value) + rest, key) == Success(value)
  {
    RawValueAtFront(key, FormEncode(value), rest);
    DecodeEncode(value);
  }

  // ---------------------------------------------------------------------
  // sanitizeInput
  // ---------------------------------------------------------------------

  /** The characters sanitizeInput keeps. */
  predicate Allowed(c: char) {
    IsAlnum(c) || c == ',' || c == '-' || c == '_'
  }

  /** The kept characters of `s`, in order. */
  function Filter(s: string): (r: string)
    ensures |r| <= |s|
    ensures forall c :: c in r <==> c in s && Allowed(c)
  {
    if |s| == 0 then ""
    else
      var rest := Filter(s[1..]);
      assert forall c :: c in s <==> c == s[0] || c in s[1..];
      if Allowed(s[0]) then [s[0]] + rest else rest
  }

  /** sanitizeInput: the kept characters, or an error when more than
      MAX_CONTENT_LENGTH of them remain. */
  function Sanitize(s: string): (r: Result<string, RequestError>)
    ensures r.Failure? <==> |Filter(s)| > MaxContentLength
    ensures r.Failure? ==> r.error == InputTooLong
    ensures r.Success? ==> forall c :: c in r.value <==> c in s && Allowed(c)
    ensures r.Success? ==> r.value == Filter(s)
  {
    var kept := Filter(s);
    if |kept| > MaxContentLength then Failure(InputTooLong) else Success(kept)
  }

  /** Filtering distributes over concatenation: each character is kept or
      dropped on its own. */
  lemma {:induction false} FilterConcat(a: string, b: string)
    ensures Filter(a + b) == Filter(a) + Filter(b)
  {
    if |a| > 0 {
      assert (a + b)[0] == a[0] && (a + b)[1..] == a[1..] + b;
      FilterConcat(a[1..], b);
    } else {
      assert a + b == b;
    }
  }

  /** A string made only of allowed characters passes through unchanged. */
  lemma {:induction false} FilterAllowed(s: string)
    requires forall i :: 0 <= i < |s| ==> Allowed(s[i])
    ensures Filter(s) == s
  {
    if |s| > 0 {
      FilterAllowed(s[1..]);
      assert [s[0]] + s[1..] == s;
    }
  }

  /** Sanitising twice is sanitising once. */
  lemma SanitizeIdempotent(s: string)
    requires Sanitize(s).Success?
    ensures Sanitize(Sanitize(s).value) == Sanitize(s)
  {
    var r := Filter(s);
    assert forall i :: 0 <= i < |r| ==> r[i] in r;
    FilterAllowed(r);
  }

  /** A board string boardToString writes is not altered by sanitizing. */
  lemma SanitizeKeepsBoardString(g: Grid)
    ensures Sanitize(BoardToString(g)) == Success(BoardToString(g))
  {
    var s := BoardToString(g);
    forall i | 0 <= i < |s|
      ensures Allowed(s[i])
    {
      if i % 2 == 0 {
        assert s[i] == Digit(Cell(g, i / 2));
        assert s[i] in "012";
      }
    }
    FilterAllowed(s);
  }

  // ---------------------------------------------------------------------
  // main
  // ---------------------------------------------------------------------

  /** The five fields main reads from the body, decoded. */
  datatype Form = Form(fromRow: string, fromCol: string, toRow: string, toCol: string, board: string)

  /** The getFormValue calls of main, in order; the first that throws ends
      the request. */
  function ReadForm(data: string): (r: Result<Form, RequestError>)
    ensures r.Success? <==>
      && GetFormValue(data, "fromRow").Success? && GetFormValue(data, "fromCol").Success?
      && GetFormValue(data, "toRow").Success? && GetFormValue(data, "toCol").Success?
      && GetFormValue(data, "boardAsString").Success?
    ensures r.Success? ==> r.value == Form(
      GetFormValue(data, "fromRow").value, GetFormValue(data, "fromCol").value,
      GetFormValue(data, "toRow").value, GetFormValue(data, "toCol").value,
      GetFormValue(data, "boardAsString").value)
    ensures r.Success? ==> |r.value.board| <= |data|
    ensures r.Failure? ==> r.error == BadEscape
  {
    var fromRow :- GetFormValue(data, "fromRow");
    var fromCol :- GetFormValue(data, "fromCol");
    var toRow :- GetFormValue(data, "toRow");
    var toCol :- GetFormValue(data, "toCol");
    var board :- GetFormValue(data, "boardAsString");
    Success(Form(fromRow, fromCol, toRow, toCol, board))
  }

  /** One coordinate: -1 when the field is empty, otherwise stoi of it,
      less `offset`. */
  function FieldValue(s: string, offset: int): (r: Result<int, RequestError>)
    ensures r.Success? <==> s == "" || Stoi(s, 10).Success?
    ensures r.Success? ==> r.value == if s == "" then -1 else Stoi(s, 10).value - offset
    ensures r.Failure? ==> r.error.BadCoordinate?
  {
    if s == "" then Success(-1)
    else match Stoi(s, 10)
      case Failure(e) => Failure(BadCoordinate(e))
      case Success(n) => Success(n - offset)
  }

  /** The converted and range-checked move: rows are sent one-based and
      columns zero-based. */
  function Coordinates(f: Form): (r: Result<(Index, Index, Index, Index), RequestError>)
    ensures r.Failure? ==> r.error.BadCoordinate? || r.error == CoordinatesOutOfRange
    ensures r.Success? <==>
      && f.fromRow != "" && Stoi(f.fromRow, 10).Success? && 1 <= Stoi(f.fromRow, 10).value <= Size
      && f.fromCol != "" && Stoi(f.fromCol, 10).Success? && 0 <= Stoi(f.fromCol, 10).value < Size
      && f.toRow != "" && Stoi(f.toRow, 10).Success? && 1 <= Stoi(f.toRow, 10).value <= Size
      && f.toCol != "" && Stoi(f.toCol, 10).Success? && 0 <= Stoi(f.toCol, 10).value < Size
    ensures r.Success? ==>
      && Stoi(f.fromRow, 10).value == r.value.0 + 1 && Stoi(f.fromCol, 10).value == r.value.1
      && Stoi(f.toRow, 10).value == r.value.2 + 1 && Stoi(f.toCol, 10).value == r.value.3
  {
    var fr :- FieldValue(f.fromRow, 1);
    var fc :- FieldValue(f.fromCol, 0);
    var tr :- FieldValue(f.toRow, 1);
    var tc :- FieldValue(f.toCol, 0);
    if fr < 0 || fr >= Size || fc < 0 || fc >= Size || tr < 0 || tr >= Size || tc < 0 || tc >= Size
    then Failure(CoordinatesOutOfRange)
    else Success((fr, fc, tr, tc))
  }

  /** The labels the page sends for a square — row i as the number i + 1,
      column j as the number j — convert back to the square. */
  lemma LabelsConvert(fr: Index, fc: Index, tr: Index, tc: Index, board: string)
    ensures Coordinates(Form(Decimal(fr + 1), Decimal(fc), Decimal(tr + 1), Decimal(tc), board))
      == Success((fr, fc, tr, tc))
  {
    RowLabel(fr);
    ColumnLabel(fc);
    RowLabel(tr);
    ColumnLabel(tc);
    ConvertedFields(Form(Decimal(fr + 1), Decimal(fc), Decimal(tr + 1), Decimal(tc), board), fr, fc, tr, tc);
  }

  /** The row label the page writes for row index i, the decimal text of
      i + 1, converts back to i. */
  lemma RowLabel(i: Index)
    ensures FieldValue(Decimal(i + 1), 1) == Success(i)
  {
    DecimalRoundTrip(i + 1);
  }

  /** The column label the page writes for column index j, the decimal
      text of j, converts back to j. */
  lemma ColumnLabel(j: Index)
    ensures FieldValue(Decimal(j), 0) == Success(j)
  {
    DecimalRoundTrip(j);
  }

  /** Four fields that convert to on-board indices are accepted as they are. */
  lemma ConvertedFields(f: Form, fr: Index, fc: Index, tr: Index, tc: Index)
    requires FieldValue(f.fromRow, 1) == Success(fr) && FieldValue(f.fromCol, 0) == Success(fc)
    requires FieldValue(f.toRow, 1) == Success(tr) && FieldValue(f.toCol, 0) == Success(tc)
    ensures Coordinates(f) == Success((fr, fc, tr, tc))
  {
  }

  /** The Board calls for a checked move: a fresh board when no board
      string came, otherwise stringToBoard, valid_move and updateBoard; the
      answer is the board string printBoard embeds. */
  function Respond(boardState: string, fr: Index, fc: Index, tr: Index, tc: Index, saved: bool)
    : (r: Result<string, RequestError>)
    ensures boardState == "" ==> r == Success(BoardToString(InitPieces(NewBoard()).pieces))
    ensures boardState != "" ==>
      (r.Success? <==>
        StringToGrid(boardState).Success? && ValidMove(StringToGrid(boardState).value, fr, fc, tr, tc) && saved)
    ensures boardState != "" && r.Success? ==>
      r.value == BoardToString(Moved(StringToGrid(boardState).value, fr, fc, tr, tc))
    ensures boardState != "" && StringToGrid(boardState).Failure? ==>
      r == Failure(BoardRejected(StringToGrid(boardState).error))
    ensures (boardState != "" && StringToGrid(boardState).Success? && !saved &&
             ValidMove(StringToGrid(boardState).value, fr, fc, tr, tc)) ==> r == Failure(BoardRejected(SaveFailed))
    ensures (boardState != "" && StringToGrid(boardState).Success? &&
             !ValidMove(StringToGrid(boardState).value, fr, fc, tr, tc)) ==> r == Failure(InvalidMove)
    ensures r.Failure? ==> r.error.BoardRejected? || r.error == InvalidMove
  {
    if boardState == "" then Success(BoardToString(InitPieces(NewBoard()).pieces))
    else
      var loaded := StringToBoard(NewBoard(), boardState);
      if loaded.thrown.Some? then Failure(BoardRejected(loaded.thrown.value))
      else if !ValidMove(loaded.board.pieces, fr, fc, tr, tc) then Failure(InvalidMove)
      else
        var o := UpdateBoard(loaded.board, fr, fc, tr, tc, saved);
        if o.thrown.Some? then Failure(BoardRejected(o.thrown.value))
        else Success(BoardToString(o.board.pieces))
  }

  /** The inner try block of main once the body is read: sanitise the board
      field, convert the coordinates, then run the Board calls. */
  function HandleForm(f: Form, saved: bool): (r: Result<string, RequestError>)
    ensures Sanitize(f.board).Failure? ==> r == Failure(InputTooLong)
    ensures Sanitize(f.board).Success? && Coordinates(f).Failure? ==> r == Failure(Coordinates(f).error)
    ensures Sanitize(f.board).Success? && Coordinates(f).Success? ==>
      var (fr, fc, tr, tc) := Coordinates(f).value;
      r == Respond(Sanitize(f.board).value, fr, fc, tr, tc, saved)
  {
    var boardState :- Sanitize(f.board);
    var (fr, fc, tr, tc) :- Coordinates(f);
    Respond(boardState, fr, fc, tr, tc, saved)
  }

  /** One POST to update_board: the text of the board it prints, or the
      error it reports. `saved` is whether saveState manages to write the
      state file. */
  function ProcessRequest(postData: string, saved: bool): (r: Result<string, RequestError>)
    ensures ReadForm(postData).Failure? ==> r == Failure(BadEscape)
    ensures ReadForm(postData).Success? ==> r == HandleForm(ReadForm(postData).value, saved)
  {
    var f :- ReadForm(postData);
    HandleForm(f, saved)
  }

  /** Whatever board the program prints reads back through stringToBoard
      and survives sanitizeInput unchanged, so the page can post it back. */
  lemma ResponseReadsBack(postData: string, saved: bool)
    ensures ProcessRequest(postData, saved).Success? ==>
      var s := ProcessRequest(postData, saved).value;
      StringToGrid(s).Success? && Sanitize(s) == Success(s)
  {
    if ProcessRequest(postData, saved).Failure? {
      return;
    }
    var f := ReadForm(postData).value;
    var (fr, fc, tr, tc) := Coordinates(f).value;
    var b := Sanitize(f.board).value;
    var g := if b == "" then InitPieces(NewBoard()).pieces
             else Moved(StringToGrid(b).value, fr, fc, tr, tc);
    assert ProcessRequest(postData, saved).value == BoardToString(g);
    RoundTrip(g);
    SanitizeKeepsBoardString(g);
  }

  /** A body no longer than MAX_CONTENT_LENGTH (all getPostData lets
      through) never trips sanitizeInput's length check. */
  lemma ShortBodyNeverTooLong(postData: string, saved: bool)
    requires |postData| <= MaxContentLength
    ensures ProcessRequest(postData, saved) != Failure(InputTooLong)
  {
    if ReadForm(postData).Success? {
      ShortFieldNeverTooLong(ReadForm(postData).value, saved);
    }
  }

  /** A board field no longer than the limit passes the sanitiser, and no
      later stage reports InputTooLong. */
  lemma ShortFieldNeverTooLong(f: Form, saved: bool)
    requires |f.board| <= MaxContentLength
    ensures HandleForm(f, saved) != Failure(InputTooLong)
  {
    assert Sanitize(f.board).Success?;
  }

  /** A body that names no move is answered with an error, never a board. */
  lemma EmptyBodyRejected(saved: bool)
    ensures ProcessRequest("", saved) == Failure(CoordinatesOutOfRange)
  {
    assert ReadForm("") == Success(Form("", "", "", "", ""));
  }

  /** The page's own round trip: posting back the board it was shown with
      the labels of a valid move gives the board after that move. */
  lemma MoveRequestApplies(g: Grid, fr: Index, fc: Index, tr: Index, tc: Index)
    requires ValidMove(g, fr, fc, tr, tc)
    ensures HandleForm(Form(Decimal(fr + 1), Decimal(fc), Decimal(tr + 1), Decimal(tc), BoardToString(g)), true)
      == Success(BoardToString(Moved(g, fr, fc, tr, tc)))
  {
    var f := Form(Decimal(fr + 1), Decimal(fc), Decimal(tr + 1), Decimal(tc), BoardToString(g));
    SanitizeKeepsBoardString(g);
    LabelsConvert(fr, fc, tr, tc, BoardToString(g));
    RoundTrip(g);
  }
}

=== FILE: checkers.dfy ===
/** The data model of the `Board` class: piece tags, game states, the 8×8
    grid of pieces, the fixed colour pattern, move records and the board
    session (grid, history, turn flag, game state). */
module Checkers {
  import opened Wrappers

  /** BOARD_SIZE: rows and columns of the board. */
  const Size: int := 8

  /** MAX_CONTENT_LENGTH: the longest request body and sanitised field accepted. */
  const MaxContentLength: int := 4096

  /** A row or column number that is on the board. */
  type Index = i: int | 0 <= i < Size

  /** Piece::Type, in declaration order NONE, BLACK, WHITE. */
  datatype Piece = Empty | Black | White

  /** GameState, in declaration order. */
  datatype GameState = Ongoing | WhiteWin | BlackWin | Draw

  /** What a `throw` of the Board class reports. */
  datatype Fault =
    | InvalidPosition      // updateBoard on an off-board square
    | SaveFailed           // saveState could not write or rename the file
    | EmptyBoardState      // stringToBoard("")
    | DimensionMismatch    // stringToBoard: token count other than 64
    | InvalidPieceValue    // stringToBoard: parsed value outside [0, 2]
    | InvalidDataFormat    // stringToBoard: token without a leading integer
    | ValueOutOfRange      // stringToBoard: leading integer does not fit an int

  predicate IsGrid(g: seq<seq<Piece>>) {
    |g| == Size && forall row <- g :: |row| == Size
  }

  /** The `pieces` member: eight rows of eight pieces. */
  type Grid = g: seq<seq<Piece>> | IsGrid(g) witness EmptyGrid()

  function EmptyGrid(): seq<seq<Piece>> {
    seq(Size, i => seq(Size, j => Empty))
  }

  /** A `Move` record of the history. Only in-bounds moves are ever recorded. */
  datatype Move = Move(fromRow: Index, fromCol: Index, toRow: Index, toCol: Index, wasCapture: bool)

  /** The mutable part of a `Board` object. The colour pattern is fixed at
      construction and never written again, so it is the function `Colour`
      rather than a field. */
  datatype Board = Board(pieces: Grid, history: seq<Move>, whiteTurn: bool, state: GameState)

  /** What a call on a board leaves behind: the board, and the exception
      it threw, if any. */
  datatype Outcome = Outcome(board: Board, thrown: Option<Fault>)

  /** The colour pattern value `board[r][c]`; pieces stand only where it is 0. */
  function Colour(r: Index, c: Index): int {
    (r + c) % 2
  }

  /** The pattern grid the constructor fills in. */
  function PatternGrid(): (p: seq<seq<int>>)
    ensures |p| == Size
    ensures forall i :: 0 <= i < Size ==> |p[i]| == Size
    ensures forall i, j :: 0 <= i < Size && 0 <= j < Size ==>
      (p[i][j] == 0 <==> (i + j) % 2 == 0) && (p[i][j] == 1 <==> (i + j) % 2 == 1)
  {
    seq(Size, i => seq(Size, j => (i + j) % 2))
  }

  /** The pattern the constructor fills in is the parity `Colour` the rules
      consult. */
  lemma PatternIsColour(i: Index, j: Index)
    ensures PatternGrid()[i][j] == Colour(i, j)
  {
  }

  /** The `Board()` constructor: no pieces, empty history, game ongoing, white to move. */
  function NewBoard(): (b: Board)
    ensures forall i: Index, j: Index :: b.pieces[i][j] == Empty
    ensures b.history == [] && b.state == Ongoing && b.whiteTurn
  {
    Board(EmptyGrid(), [], true, Ongoing)
  }

  predicate IsValidPosition(r: int, c: int) {
    r >= 0 && r < Size && c >= 0 && c < Size
  }

  /** isGameOver(): the game has reached one of the three terminal states. */
  predicate IsGameOver(b: Board)
    ensures IsGameOver(b) <==> b.state in {WhiteWin, BlackWin, Draw}
  {
    b.state != Ongoing
  }

  /** `pieces[r][c].setType(p)`: the one square takes the new type and no
      other square changes. */
  function SetType(g: Grid, r: Index, c: Index, p: Piece): (h: Grid)
    ensures h[r][c] == p
    ensures forall i: Index, j: Index :: (i, j) != (r, c) ==> h[i][j] == g[i][j]
  {
    g[r := g[r][c := p]]
  }

  /** Two grids that agree on every square are the same grid. */
  lemma GridExtensionality(g: Grid, h: Grid)
    requires forall i: Index, j: Index :: g[i][j] == h[i][j]
    ensures g == h
  {
    forall i | 0 <= i < Size
      ensures g[i] == h[i]
    {
      assert forall j :: 0 <= j < Size ==> g[i][j] == h[i][j];
    }
  }

  /** The codec value of a piece type: its position in the enum. */
  function Code(p: Piece): (n: nat)
    ensures n <= 2
  {
    match p
    case Empty => 0
    case Black => 1
    case White => 2
  }

  /** `static_cast<Piece::Type>(value)` for the values the codec admits. */
  function FromCode(n: int): (r: Option<Piece>)
    ensures r.Some? <==> 0 <= n <= 2
  {
    if n == 0 then Some(Empty)
    else if n == 1 then Some(Black)
    else if n == 2 then Some(White)
    else None
  }

  /** The enum order gives a bijection between piece types and the values 0, 1, 2. */
  lemma CodeBijection(p: Piece, n: int)
    ensures FromCode(Code(p)) == Some(p)
    ensures FromCode(n).Some? ==> Code(FromCode(n).value) == n
  {
  }
}

=== FILE: codec.dfy ===
/** The text form of the grid, `boardToString` and `stringToBoard`: 64
    comma-separated tokens, row-major, "0" for an empty square, "1" for
    black and "2" for white. */
module BoardCodec {
  import opened Wrappers
  import opened Checkers
  import opened Strtol

  /** The token boardToString writes for a piece. */
  function Digit(p: Piece): char {
    match p
    case Empty => '0'
    case Black => '1'
    case White => '2'
  }

  /** Square `k` in row-major order. */
  function Cell(g: Grid, k: int): Piece
    requires 0 <= k < Size * Size
  {
    g[k / Size][k % Size]
  }

  /** Tokens joined with one comma between neighbours. */
  function Join(ts: seq<string>): string {
    if |ts| == 0 then ""
    else if |ts| == 1 then ts[0]
    else ts[0] + "," + Join(ts[1..])
  }

  /** The one-character tokens of the grid, row-major. */
  function CellTokens(g: Grid): (ts: seq<string>)
    ensures |ts| == Size * Size
    ensures forall k :: 0 <= k < |ts| ==> ts[k] == [Digit(Cell(g, k))]
  {
    seq(Size * Size, k requires 0 <= k < Size * Size => [Digit(Cell(g, k))])
  }

  /** Joining one more token puts a comma before it. */
  lemma {:induction false} JoinSnoc(ts: seq<string>, t: string)
    requires |ts| > 0
    ensures Join(ts + [t]) == Join(ts) + "," + t
  {
    if |ts| == 1 {
      assert ts + [t] == [ts[0], t];
    } else {
      assert (ts + [t])[1..] == ts[1..] + [t];
      JoinSnoc(ts[1..], t);
    }
  }

  /** Joined one-character tokens alternate token, comma, token, ... */
  lemma {:induction false} JoinSingles(ts: seq<string>)
    requires |ts| > 0
    requires forall k :: 0 <= k < |ts| ==> |ts[k]| == 1
    ensures |Join(ts)| == 2 * |ts| - 1
    ensures forall i :: 0 <= i < |Join(ts)| ==> Join(ts)[i] == (if i % 2 == 0 then ts[i / 2][0] else ',')
  {
    if |ts| > 1 {
      JoinSingles(ts[1..]);
      var rest := Join(ts[1..]);
      assert Join(ts) == ts[0] + "," + rest;
      forall i | 2 <= i < |Join(ts)|
        ensures Join(ts)[i] == (if i % 2 == 0 then ts[i / 2][0] else ',')
      {
        assert Join(ts)[i] == rest[i - 2];
      }
    }
  }

  /** boardToString: 127 characters, the code of square k at position 2k and
      a comma at every odd position. */
  function BoardToString(g: Grid): (s: string)
    ensures |s| == 2 * Size * Size - 1
    ensures forall i :: 0 <= i < |s| ==> s[i] == (if i % 2 == 0 then Digit(Cell(g, i / 2)) else ',')
  {
    JoinSingles(CellTokens(g));
    Join(CellTokens(g))
  }

  /** The loops of boardToString, statement for statement: a comma before
      every token but the first. */
  method BoardToStringLoop(g: Grid) returns (result: string)
    ensures result == BoardToString(g)
  {
    result := "";
    for i := 0 to Size
      invariant result == Join(CellTokens(g)[..Size * i])
    {
      for j := 0 to Size
        invariant result == Join(CellTokens(g)[..Size * i + j])
      {
        LoopStep(g, i, j);
        if result != "" {
          result := result + ",";
        }
        result := result + [Digit(g[i][j])];
      }
    }
    assert CellTokens(g)[..Size * Size] == CellTokens(g);
  }

  /** One pass of the inner loop appends square (i, j) to the text of the
      squares before it. */
  lemma LoopStep(g: Grid, i: Index, j: Index)
    ensures var prefix := Join(CellTokens(g)[..Size * i + j]);
      Join(CellTokens(g)[..Size * i + j + 1]) == (if prefix != "" then prefix + "," else "") + [Digit(g[i][j])]
  {
    var k := Size * i + j;
    RowMajor(i, j);
    assert Cell(g, k) == g[i][j];
    JoinSnocCell(CellTokens(g), k);
  }

  /** One step of the loop: the prefix up to k + 1 joins as the prefix up
      to k, a comma unless that prefix is empty, and token k. */
  lemma JoinSnocCell(ts: seq<string>, k: nat)
    requires k < |ts| && ts[k] != ""
    requires forall i :: 0 <= i < |ts| ==> ts[i] != ""
    ensures Join(ts[..k + 1]) == (if Join(ts[..k]) != "" then Join(ts[..k]) + "," else "") + ts[k]
  {
    assert ts[..k + 1] == ts[..k] + [ts[k]];
    if k > 0 {
      JoinSnoc(ts[..k], ts[k]);
      assert Join(ts[..k]) != "" by {
        JoinNonEmpty(ts[..k]);
      }
    }
  }

  lemma JoinNonEmpty(ts: seq<string>)
    requires |ts| > 0 && ts[0] != ""
    ensures Join(ts) != ""
  {
  }

  /** The index of the first comma, or |s| when there is none. */
  function FirstComma(s: string): (i: nat)
    ensures i <= |s|
    ensures i < |s| ==> s[i] == ','
    ensures forall j :: 0 <= j < i ==> s[j] != ','
  {
    if |s| == 0 || s[0] == ',' then 0 else 1 + FirstComma(s[1..])
  }

  /** The tokens `getline(ss, token, ',')` yields, call after call: the
      text up to the next comma, the comma consumed; a final call that
      meets the end of the text with nothing read yields no token, so a
      trailing comma adds no empty token. */
  function SplitTokens(s: string): (ts: seq<string>)
    ensures forall k :: 0 <= k < |ts| ==> ',' !in ts[k]
    decreases |s|
  {
    if |s| == 0 then []
    else
      var i := FirstComma(s);
      if i == |s| then [s] else [s[..i]] + SplitTokens(s[i + 1..])
  }

  /** A comma appended to a text that does not already end in one adds no
      token: getline's last call meets the end with nothing read. */
  lemma {:induction false} SplitTrailing(s: string)
    requires |s| > 0 && s[|s| - 1] != ','
    ensures SplitTokens(s + ",") == SplitTokens(s)
    decreases |s|
  {
    var i := FirstComma(s);
    var t := s + ",";
    assert forall j :: 0 <= j < |s| ==> t[j] == s[j];
    FirstCommaAt(t, i);
    if i == |s| {
      assert t[..|s|] == s && t[|s| + 1..] == "";
    } else {
      assert t[..i] == s[..i] && t[i + 1..] == s[i + 1..] + ",";
      SplitTrailing(s[i + 1..]);
    }
  }

  /** The first comma is the one position with a comma and none before it. */
  lemma FirstCommaAt(s: string, i: nat)
    requires i < |s| && s[i] == ','
    requires forall j :: 0 <= j < i ==> s[j] != ','
    ensures FirstComma(s) == i
  {
  }

  /** getline splits a joined sequence back into its tokens, as long as no
      token holds a comma and the last one is not empty. */
  lemma {:induction false} SplitJoin(ts: seq<string>)
    requires |ts| > 0 && ts[|ts| - 1] != ""
    requires forall k :: 0 <= k < |ts| ==> ',' !in ts[k]
    ensures SplitTokens(Join(ts)) == ts
  {
    var s := Join(ts);
    if |ts| == 1 {
      assert FirstComma(s) == |s|;
    } else {
      var rest := Join(ts[1..]);
      assert s == ts[0] + "," + rest;
      assert s[|ts[0]|] == ',';
      assert forall j :: 0 <= j < |ts[0]| ==> s[j] == ts[0][j];
      assert FirstComma(s) == |ts[0]|;
      assert s[..|ts[0]|] == ts[0];
      assert s[|ts[0]| + 1..] == rest;
      SplitJoin(ts[1..]);
    }
  }

  /** One token of the second getline loop: stoi, then the range check. */
  function ParsePiece(token: string): (r: Result<Piece, Fault>)
    ensures r.Success? <==> Stoi(token, 10).Success? && 0 <= Stoi(token, 10).value <= 2
    ensures r.Success? ==> Code(r.value) == Stoi(token, 10).value
  {
    match Stoi(token, 10)
    case Failure(NoConversion) => Failure(InvalidDataFormat)
    case Failure(OutOfRange) => Failure(ValueOutOfRange)
    case Success(value) =>
      if value < 0 || value > 2 then Failure(InvalidPieceValue)
      else Success(FromCode(value).value)
  }

  /** Token results in order, collected until the first failure, which
      decides the error. */
  function Collect(rs: seq<Result<Piece, Fault>>): (r: Result<seq<Piece>, Fault>)
    ensures r.Success? <==> forall k :: 0 <= k < |rs| ==> rs[k].Success?
    ensures r.Success? ==> |r.value| == |rs| && forall k :: 0 <= k < |rs| ==> r.value[k] == rs[k].value
    ensures r.Failure? ==> exists k :: 0 <= k < |rs| && FirstFailure(rs, k) && rs[k] == Failure(r.error)
  {
    if |rs| == 0 then Success([])
    else
      match rs[0]
      case Failure(e) =>
        assert FirstFailure(rs, 0);
        Failure(e)
      case Success(first) =>
        match Collect(rs[1..])
        case Failure(e) =>
          var k :| 0 <= k < |rs| - 1 && FirstFailure(rs[1..], k) && rs[1..][k] == Failure(e);
          assert FirstFailure(rs, k + 1);
          Failure(e)
        case Success(rest) => Success([first] + rest)
  }

  /** Result `k` is the first failure. */
  predicate FirstFailure(rs: seq<Result<Piece, Fault>>, k: nat)
    requires k < |rs|
  {
    rs[k].Failure? && forall j :: 0 <= j < k ==> rs[j].Success?
  }

  /** The second getline loop: the tokens parsed in order; the first one
      that fails decides the error. */
  function ParseCells(tokens: seq<string>): (r: Result<seq<Piece>, Fault>)
    ensures r.Success? <==> forall k :: 0 <= k < |tokens| ==> ParsePiece(tokens[k]).Success?
    ensures r.Success? ==> |r.value| == |tokens|
    ensures r.Success? ==> forall k :: 0 <= k < |tokens| ==> r.value[k] == ParsePiece(tokens[k]).value
    ensures r.Failure? ==>
      exists k :: 0 <= k < |tokens| && ParsePiece(tokens[k]) == Failure(r.error) &&
        forall j :: 0 <= j < k ==> ParsePiece(tokens[j]).Success?
  {
    var rs := seq(|tokens|, k requires 0 <= k < |tokens| => ParsePiece(tokens[k]));
    assert forall k :: 0 <= k < |tokens| ==> rs[k] == ParsePiece(tokens[k]);
    var r := Collect(rs);
    if r.Failure? then
      var k :| 0 <= k < |rs| && FirstFailure(rs, k) && rs[k] == Failure(r.error);
      r
    else r
  }

  /** Row-major cells laid out as a grid. */
  function ToGrid(cells: seq<Piece>): (g: Grid)
    requires |cells| == Size * Size
    ensures forall k :: 0 <= k < Size * Size ==> Cell(g, k) == cells[k]
  {
    seq(Size, i requires 0 <= i < Size =>
      seq(Size, j requires 0 <= j < Size => cells[Size * i + j]))
  }

  /** The validated grid stringToBoard would commit, or the reason it throws:
      an empty string, a token count other than 64, or (first in order) a
      token with no leading integer, one out of int range, or a value
      outside [0, 2]. */
  function StringToGrid(s: string): (r: Result<Grid, Fault>)
    ensures s == "" ==> r == Failure(EmptyBoardState)
    ensures s != "" && |SplitTokens(s)| != Size * Size ==> r == Failure(DimensionMismatch)
    ensures r.Success? <==>
      s != "" && |SplitTokens(s)| == Size * Size &&
      forall k :: 0 <= k < Size * Size ==> ParsePiece(SplitTokens(s)[k]).Success?
    ensures r.Success? ==>
      forall k :: 0 <= k < Size * Size ==> Cell(r.value, k) == ParsePiece(SplitTokens(s)[k]).value
  {
    if s == "" then Failure(EmptyBoardState)
    else
      var tokens := SplitTokens(s);
      if |tokens| != Size * Size then Failure(DimensionMismatch)
      else
        var cells :- ParseCells(tokens);
        Success(ToGrid(cells))
  }

  /** stringToBoard: on success only `pieces` is replaced; when it throws,
      the board is left exactly as it was. */
  function StringToBoard(b: Board, s: string): (o: Outcome)
    ensures o.thrown.None? <==> StringToGrid(s).Success?
    ensures o.thrown.Some? ==> o.board == b && o.thrown == Some(StringToGrid(s).error)
    ensures o.thrown.None? ==> o.board == b.(pieces := StringToGrid(s).value)
  {
    match StringToGrid(s)
    case Failure(e) => Outcome(b, Some(e))
    case Success(g) => Outcome(b.(pieces := g), None)
  }

  /** A one-character token "0", "1" or "2" reads as its piece. */
  lemma DigitTokenParses(p: Piece)
    ensures ParsePiece([Digit(p)]) == Success(p)
  {
    var t := [Digit(p)];
    ReadsFromFirstDigit(t, 10);
    assert DigitRun(t, 10) == 1;
    assert t[..1] == t;
    assert DigitsValue(t, 10) == Code(p);
    CodeBijection(p, Code(p));
  }

  /** getline recovers the 64 one-character tokens boardToString joined. */
  lemma TokensOfString(g: Grid)
    ensures SplitTokens(BoardToString(g)) == CellTokens(g)
  {
    var ts := CellTokens(g);
    forall k | 0 <= k < |ts|
      ensures ',' !in ts[k]
    {
      assert ts[k] == [Digit(Cell(g, k))];
    }
    SplitJoin(ts);
  }

  /** Every token of boardToString parses to the square it came from. */
  lemma CellsOfTokens(g: Grid)
    ensures ParseCells(CellTokens(g)).Success?
    ensures forall k :: 0 <= k < Size * Size ==> ParseCells(CellTokens(g)).value[k] == Cell(g, k)
  {
    var ts := CellTokens(g);
    forall k | 0 <= k < Size * Size
      ensures ParsePiece(ts[k]) == Success(Cell(g, k))
    {
      DigitTokenParses(Cell(g, k));
    }
  }

  /** Square (i, j) is cell 8i + j of the row-major order. */
  lemma RowMajor(i: Index, j: Index)
    ensures (Size * i + j) / Size == i && (Size * i + j) % Size == j
  {
  }

  /** Laying out the row-major cells of a grid gives the grid back. */
  lemma ToGridOfCells(g: Grid, cells: seq<Piece>)
    requires |cells| == Size * Size
    requires forall k :: 0 <= k < Size * Size ==> cells[k] == Cell(g, k)
    ensures ToGrid(cells) == g
  {
    var h := ToGrid(cells);
    forall i: Index, j: Index
      ensures h[i][j] == g[i][j]
    {
      RowMajor(i, j);
      assert h[i][j] == cells[Size * i + j];
    }
    GridExtensionality(h, g);
  }

  /** stringToBoard(boardToString()) restores the identical grid. */
  lemma RoundTrip(g: Grid)
    ensures StringToGrid(BoardToString(g)) == Success(g)
  {
    var s := BoardToString(g);
    TokensOfString(g);
    CellsOfTokens(g);
    var cells := ParseCells(CellTokens(g)).value;
    ToGridOfCells(g, cells);
    assert s != "";
    assert StringToGrid(s) == Success(ToGrid(cells));
  }

  /** Two non-empty texts with the same tokens are read alike. */
  lemma SameTokensSameGrid(s: string, t: string)
    requires s != "" && t != "" && SplitTokens(s) == SplitTokens(t)
    ensures StringToGrid(s) == StringToGrid(t)
  {
  }

  /** stringToBoard also accepts a board text followed by a comma. */
  lemma TrailingCommaAccepted(g: Grid)
    ensures StringToGrid(BoardToString(g) + ",") == Success(g)
  {
    var s := BoardToString(g);
    assert s[|s| - 1] != ',';
    SplitTrailing(s);
    SameTokensSameGrid(s + ",", s);
    RoundTrip(g);
  }

  /** Dropping the first token and its comma leaves 63 tokens. */
  lemma SixtyThreeTokensRejected(g: Grid)
    ensures StringToGrid(BoardToString(g)[2..]) == Failure(DimensionMismatch)
  {
    var ts := CellTokens(g);
    assert Join(ts) == ts[0] + "," + Join(ts[1..]);
    assert BoardToString(g)[2..] == Join(ts[1..]);
    forall k | 0 <= k < |ts[1..]|
      ensures ',' !in ts[1..][k]
    {
      assert ts[1..][k] == [Digit(Cell(g, k + 1))];
    }
    SplitJoin(ts[1..]);
  }

  /** A token "5" in place of the first one is an invalid piece value. */
  lemma FiveRejected(g: Grid)
    ensures StringToGrid("5" + BoardToString(g)[1..]) == Failure(InvalidPieceValue)
  {
    FiveTokens(g);
    FiveOutOfRange();
    FirstTokenDecides("5" + BoardToString(g)[1..]);
  }

  /** getline splits the text with its first token replaced by "5" into
      "5" and the other 63 tokens. */
  lemma FiveTokens(g: Grid)
    ensures SplitTokens("5" + BoardToString(g)[1..]) == ["5"] + CellTokens(g)[1..]
  {
    var ts := CellTokens(g);
    var five := ["5"] + ts[1..];
    ReplaceFirstToken(ts, "5");
    forall k | 0 <= k < |five|
      ensures ',' !in five[k]
    {
      if k > 0 {
        assert five[k] == [Digit(Cell(g, k))];
      }
    }
    SplitJoin(five);
  }

  /** Replacing a one-character first token of a joined text. */
  lemma ReplaceFirstToken(ts: seq<string>, t: string)
    requires |ts| > 1 && |ts[0]| == 1
    ensures t + Join(ts)[1..] == Join([t] + ts[1..])
  {
    var five := [t] + ts[1..];
    assert five[1..] == ts[1..];
    assert Join(ts)[1..] == "," + Join(ts[1..]);
  }

  /** stoi reads "5", which is outside the enum. */
  lemma FiveOutOfRange()
    ensures ParsePiece("5") == Failure(InvalidPieceValue)
  {
    var t := "5";
    ReadsFromFirstDigit(t, 10);
    assert DigitRun(t, 10) == 1;
    assert t[..1] == t;
  }

  /** When the first of 64 tokens fails, its fault is the one reported. */
  lemma FirstTokenDecides(s: string)
    requires |SplitTokens(s)| == Size * Size && ParsePiece(SplitTokens(s)[0]).Failure?
    ensures StringToGrid(s) == Failure(ParsePiece(SplitTokens(s)[0]).error)
  {
    var tokens := SplitTokens(s);
    assert s != "";
    var r := ParseCells(tokens);
    var k :| 0 <= k < |tokens| && ParsePiece(tokens[k]) == Failure(r.error) &&
      forall j :: 0 <= j < k ==> ParsePiece(tokens[j]).Success?;
    assert k == 0;
  }
}

=== FILE: engine.dfy ===
/** The mutating members of `Board` in checkers.cpp: `initPieces`,
    `updatePieces`, `removeCapturedPiece`, `recordMove`, `toggleTurn`,
    `updateBoard`, `make_move` and `undoLastMove`, each as a function from
    the board before the call to the board after it. */
module Engine {
  import opened Wrappers
  import opened Checkers
  import opened Rules

  /** The starting layout on a pattern-0 square of row `i`, or None for the
      squares initPieces does not write. */
  function StartingPiece(i: Index, j: Index): Option<Piece> {
    if Colour(i, j) != 0 then None
    else if i < 3 then Some(Black)
    else if i >= 5 then Some(White)
    else None
  }

  /** initPieces(). The `resize` leaves an existing 8×8 grid as it is, so
      the squares the loops do not write keep their pieces. */
  function InitPieces(b: Board): (r: Board)
    ensures r.history == b.history && r.whiteTurn == b.whiteTurn && r.state == b.state
    ensures forall i: Index, j: Index ::
      r.pieces[i][j] == (if StartingPiece(i, j).Some? then StartingPiece(i, j).value else b.pieces[i][j])
  {
    var g := seq(Size, i requires 0 <= i < Size =>
      seq(Size, j requires 0 <= j < Size =>
        if StartingPiece(i, j).Some? then StartingPiece(i, j).value else b.pieces[i][j]));
    b.(pieces := g)
  }

  /** The number of entries of type `t` in a row. */
  function CountIn(row: seq<Piece>, t: Piece): nat {
    if |row| == 0 then 0 else (if row[0] == t then 1 else 0) + CountIn(row[1..], t)
  }

  /** The number of pieces of type `t` on the grid. */
  function Count(g: Grid, t: Piece): nat {
    CountIn(g[0], t) + CountIn(g[1], t) + CountIn(g[2], t) + CountIn(g[3], t)
    + CountIn(g[4], t) + CountIn(g[5], t) + CountIn(g[6], t) + CountIn(g[7], t)
  }

  /** A fresh board after initPieces: black on the pattern-0 squares of
      rows 0-2, white on those of rows 5-7, everything else empty. */
  lemma InitialLayout()
    ensures var g := InitPieces(NewBoard()).pieces;
      && (forall i: Index, j: Index :: g[i][j] == Black <==> i < 3 && (i + j) % 2 == 0)
      && (forall i: Index, j: Index :: g[i][j] == White <==> i >= 5 && (i + j) % 2 == 0)
      && (forall i: Index, j: Index :: g[i][j] == Empty <==> (3 <= i < 5 || (i + j) % 2 == 1))
  {
  }

  /** The piece type initPieces puts on row `i`; Empty for rows 3 and 4. */
  function RowPiece(i: Index): Piece {
    if i < 3 then Black else if i >= 5 then White else Empty
  }

  /** Row `i` of the starting grid, spelled out. */
  function StartRow(i: Index): seq<Piece> {
    var p := RowPiece(i);
    if i % 2 == 0 then [p, Empty, p, Empty, p, Empty, p, Empty]
    else [Empty, p, Empty, p, Empty, p, Empty, p]
  }

  lemma InitialRow(i: Index)
    ensures InitPieces(NewBoard()).pieces[i] == StartRow(i)
  {
    var row := InitPieces(NewBoard()).pieces[i];
    var p := RowPiece(i);
    forall j: Index
      ensures row[j] == if (i + j) % 2 == 0 then p else Empty
    {
    }
    AlternatingRow(row, i, p);
  }

  /** A row holding `p` exactly on its pattern-0 squares is the spelled-out row. */
  lemma AlternatingRow(row: seq<Piece>, i: Index, p: Piece)
    requires |row| == Size
    requires forall j: Index :: row[j] == if (i + j) % 2 == 0 then p else Empty
    ensures row == if i % 2 == 0 then [p, Empty, p, Empty, p, Empty, p, Empty]
                   else [Empty, p, Empty, p, Empty, p, Empty, p]
  {
    if i % 2 == 0 {
      assert (i + 0) % 2 == 0 && (i + 1) % 2 == 1 && (i + 2) % 2 == 0 && (i + 3) % 2 == 1;
      assert (i + 4) % 2 == 0 && (i + 5) % 2 == 1 && (i + 6) % 2 == 0 && (i + 7) % 2 == 1;
    } else {
      assert (i + 0) % 2 == 1 && (i + 1) % 2 == 0 && (i + 2) % 2 == 1 && (i + 3) % 2 == 0;
      assert (i + 4) % 2 == 1 && (i + 5) % 2 == 0 && (i + 6) % 2 == 1 && (i + 7) % 2 == 0;
    }
  }

  /** Counting distributes over concatenation. */
  lemma {:induction false} CountInConcat(a: seq<Piece>, b: seq<Piece>, t: Piece)
    ensures CountIn(a + b, t) == CountIn(a, t) + CountIn(b, t)
  {
    if |a| == 0 {
      assert a + b == b;
    } else {
      assert (a + b)[0] == a[0];
      assert (a + b)[1..] == a[1..] + b;
      CountInConcat(a[1..], b, t);
    }
  }

  /** Four copies of a block hold four times its count. */
  lemma QuadCount(q: seq<Piece>, t: Piece)
    ensures CountIn((q + q) + (q + q), t) == 4 * CountIn(q, t)
  {
    CountInConcat(q, q, t);
    CountInConcat(q + q, q + q, t);
  }

  /** How many entries of type `t` a row of four `p`s and four empty
      squares holds, in either phase. */
  lemma AlternatingRowCount(p: Piece, t: Piece)
    ensures CountIn([p, Empty, p, Empty, p, Empty, p, Empty], t)
      == CountIn([Empty, p, Empty, p, Empty, p, Empty, p], t)
      == (if p == t then 4 else 0) + (if t == Empty then 4 else 0)
  {
    var pair, riap := [p, Empty], [Empty, p];
    assert CountIn(pair, t) == CountIn(riap, t) == (if p == t then 1 else 0) + (if t == Empty then 1 else 0) by {
      assert CountIn(pair[1..][1..], t) == 0 && CountIn(riap[1..][1..], t) == 0;
      assert CountIn(pair[1..], t) == if t == Empty then 1 else 0;
      assert CountIn(riap[1..], t) == if t == p then 1 else 0;
    }
    QuadCount(pair, t);
    assert [p, Empty, p, Empty, p, Empty, p, Empty] == (pair + pair) + (pair + pair);
    QuadCount(riap, t);
    assert [Empty, p, Empty, p, Empty, p, Empty, p] == (riap + riap) + (riap + riap);
  }

  /** The starting grid holds twelve pieces of each colour and forty empty squares. */
  lemma InitialCounts()
    ensures var g := InitPieces(NewBoard()).pieces;
      Count(g, Black) == 12 && Count(g, White) == 12 && Count(g, Empty) == 40
  {
    var g := InitPieces(NewBoard()).pieces;
    forall i: Index
      ensures g[i] == StartRow(i)
    {
      InitialRow(i);
    }
    StartRowsCount(g, Black);
    StartRowsCount(g, White);
    StartRowsCount(g, Empty);
  }

  /** Each spelled-out starting row holds four pieces of its colour (none
      for rows 3 and 4) and four or eight empty squares. */
  lemma StartRowCount(i: Index, t: Piece)
    ensures CountIn(StartRow(i), t) == (if RowPiece(i) == t then 4 else 0) + (if t == Empty then 4 else 0)
  {
    AlternatingRowCount(RowPiece(i), t);
  }

  lemma StartRowsCount(g: Grid, t: Piece)
    requires forall i: Index :: g[i] == StartRow(i)
    ensures Count(g, t) == if t == Empty then 40 else 12
  {
    StartRowCount(0, t);
    StartRowCount(1, t);
    StartRowCount(2, t);
    StartRowCount(3, t);
    StartRowCount(4, t);
    StartRowCount(5, t);
    StartRowCount(6, t);
    StartRowCount(7, t);
  }

  /** updatePieces: the destination takes the source's type, then the
      source is cleared; no other square changes. */
  function UpdatePieces(g: Grid, fr: Index, fc: Index, tr: Index, tc: Index): (h: Grid)
    ensures (fr, fc) != (tr, tc) ==> h[tr][tc] == g[fr][fc]
    ensures h[fr][fc] == Empty
    ensures forall i: Index, j: Index :: (i, j) != (fr, fc) && (i, j) != (tr, tc) ==> h[i][j] == g[i][j]
  {
    SetType(SetType(g, tr, tc, g[fr][fc]), fr, fc, Empty)
  }

  /** removeCapturedPiece: the square halfway between source and destination
      becomes empty; no other square changes. */
  function RemoveCapturedPiece(g: Grid, fr: Index, fc: Index, tr: Index, tc: Index): (h: Grid)
    ensures h[Mid(fr, tr)][Mid(fc, tc)] == Empty
    ensures forall i: Index, j: Index :: (i, j) != (Mid(fr, tr), Mid(fc, tc)) ==> h[i][j] == g[i][j]
  {
    SetType(g, Mid(fr, tr), Mid(fc, tc), Empty)
  }

  /** The grid updateBoard computes: the piece moves, and when the rows
      differ by two the square halfway is cleared as well. */
  function Moved(g: Grid, fr: Index, fc: Index, tr: Index, tc: Index): (h: Grid)
    ensures (fr, fc) != (tr, tc) ==> h[tr][tc] == g[fr][fc]
    ensures h[fr][fc] == Empty
    ensures Abs(tr - fr) == 2 ==> h[Mid(fr, tr)][Mid(fc, tc)] == Empty
    ensures forall i: Index, j: Index ::
      (i, j) != (fr, fc) && (i, j) != (tr, tc) && (Abs(tr - fr) == 2 ==> (i, j) != (Mid(fr, tr), Mid(fc, tc)))
      ==> h[i][j] == g[i][j]
  {
    var moved := UpdatePieces(g, fr, fc, tr, tc);
    if Abs(tr - fr) == 2 then RemoveCapturedPiece(moved, fr, fc, tr, tc) else moved
  }

  /** recordMove: exactly one record is appended to the history. */
  function RecordMove(b: Board, fr: Index, fc: Index, tr: Index, tc: Index, wasCapture: bool): (r: Board)
    ensures |r.history| == |b.history| + 1 && r.history[..|b.history|] == b.history
    ensures r.history[|b.history|] == Move(fr, fc, tr, tc, wasCapture)
    ensures r.pieces == b.pieces && r.whiteTurn == b.whiteTurn && r.state == b.state
  {
    b.(history := b.history + [Move(fr, fc, tr, tc, wasCapture)])
  }

  /** toggleTurn (its HTML output left out). */
  function ToggleTurn(b: Board): (r: Board)
    ensures r.whiteTurn != b.whiteTurn
    ensures r.pieces == b.pieces && r.history == b.history && r.state == b.state
  {
    b.(whiteTurn := !b.whiteTurn)
  }

  /** updateBoard. Off-board coordinates throw before anything changes.
      Otherwise the piece moves, a two-row move clears the square halfway,
      the move is recorded, the game state is judged for the side whose
      turn it still is, and the turn flips; `saved` says whether saveState
      then succeeds. When it fails, the catch block puts back `pieces`
      only: the history record, the turn flip and the new game state stay. */
  function UpdateBoard(b: Board, fr: int, fc: int, tr: int, tc: int, saved: bool): (o: Outcome)
    ensures !IsValidPosition(fr, fc) || !IsValidPosition(tr, tc) ==> o == Outcome(b, Some(InvalidPosition))
    ensures IsValidPosition(fr, fc) && IsValidPosition(tr, tc) ==>
      && |o.board.history| == |b.history| + 1 && o.board.history[..|b.history|] == b.history
      && o.board.history[|b.history|] == Move(fr, fc, tr, tc, Abs(tr - fr) == 2)
      && o.board.whiteTurn == !b.whiteTurn
      && o.board.state == UpdateGameState(Moved(b.pieces, fr, fc, tr, tc), b.whiteTurn)
      && (saved ==> o.thrown == None && o.board.pieces == Moved(b.pieces, fr, fc, tr, tc))
      && (!saved ==> o.thrown == Some(SaveFailed) && o.board.pieces == b.pieces)
  {
    if !IsValidPosition(fr, fc) || !IsValidPosition(tr, tc) then
      Outcome(b, Some(InvalidPosition))
    else
      var oldState := b.pieces;
      var isCapture := Abs(tr - fr) == 2;
      var moved := UpdatePieces(b.pieces, fr, fc, tr, tc);
      var cleared := if isCapture then RemoveCapturedPiece(moved, fr, fc, tr, tc) else moved;
      var recorded := RecordMove(b.(pieces := cleared), fr, fc, tr, tc, isCapture);
      var judged := recorded.(state := UpdateGameState(recorded.pieces, recorded.whiteTurn));
      var toggled := ToggleTurn(judged);
      if saved then Outcome(toggled, None)
      else Outcome(toggled.(pieces := oldState), Some(SaveFailed))
  }

  /** make_move: a move valid_move refuses is a silent no-op; a valid one is
      a single forward diagonal step, so exactly two squares change, one
      non-capture record is appended and the turn flips once. */
  function MakeMove(b: Board, fr: int, fc: int, tr: int, tc: int, saved: bool): (o: Outcome)
    ensures !ValidMove(b.pieces, fr, fc, tr, tc) ==> o == Outcome(b, None)
    ensures ValidMove(b.pieces, fr, fc, tr, tc) ==>
      && IsValidPosition(fr, fc) && IsValidPosition(tr, tc)
      && o.board.history == b.history + [Move(fr, fc, tr, tc, false)]
      && o.board.whiteTurn == !b.whiteTurn
      && o.board.state == UpdateGameState(Moved(b.pieces, fr, fc, tr, tc), b.whiteTurn)
      && (saved ==>
            && o.thrown == None
            && o.board.pieces[tr][tc] == b.pieces[fr][fc] && o.board.pieces[fr][fc] == Empty
            && forall i: Index, j: Index :: (i, j) != (fr, fc) && (i, j) != (tr, tc) ==>
                 o.board.pieces[i][j] == b.pieces[i][j])
      && (!saved ==> o.thrown == Some(SaveFailed) && o.board.pieces == b.pieces)
  {
    if ValidMove(b.pieces, fr, fc, tr, tc) then
      var o := UpdateBoard(b, fr, fc, tr, tc, saved);
      assert o.board.history == b.history + [Move(fr, fc, tr, tc, false)];
      o
    else Outcome(b, None)
  }

  /** The piece type undoLastMove puts back on the jumped square: the
      opposite of the piece standing on the source square after the move
      back, black for anything that is not black. */
  function RestoredCapture(p: Piece): Piece {
    if p == Black then White else Black
  }

  /** undoLastMove. With no history it reports false and changes nothing.
      Otherwise it pops the last record, copies the destination square back
      to the source, clears the destination and, for a capture, puts the
      colour opposite to the restored piece on the square halfway. The turn
      flag and the game state are left as they are. */
  function UndoLastMove(b: Board): (res: (bool, Board))
    ensures |b.history| == 0 <==> !res.0
    ensures |b.history| == 0 ==> res.1 == b
    ensures |b.history| > 0 ==>
      var m := b.history[|b.history| - 1];
      var restored := if (m.fromRow, m.fromCol) != (m.toRow, m.toCol) then b.pieces[m.toRow][m.toCol] else Empty;
      var mid := (Mid(m.fromRow, m.toRow), Mid(m.fromCol, m.toCol));
      var h := res.1.pieces;
      && res.1.history == b.history[..|b.history| - 1]
      && res.1.whiteTurn == b.whiteTurn && res.1.state == b.state
      && (m.wasCapture ==> h[mid.0][mid.1] == RestoredCapture(restored))
      && (!m.wasCapture || (m.fromRow, m.fromCol) != mid ==> h[m.fromRow][m.fromCol] == restored)
      && (!m.wasCapture || (m.toRow, m.toCol) != mid ==> h[m.toRow][m.toCol] == Empty)
      && forall i: Index, j: Index ::
           (i, j) != (m.fromRow, m.fromCol) && (i, j) != (m.toRow, m.toCol) && (m.wasCapture ==> (i, j) != mid)
           ==> h[i][j] == b.pieces[i][j]
  {
    if |b.history| == 0 then (false, b)
    else
      var last := b.history[|b.history| - 1];
      var popped := b.history[..|b.history| - 1];
      var g1 := SetType(b.pieces, last.fromRow, last.fromCol, b.pieces[last.toRow][last.toCol]);
      var g2 := SetType(g1, last.toRow, last.toCol, Empty);
      var g3 :=
        if last.wasCapture then
          SetType(g2, Mid(last.fromRow, last.toRow), Mid(last.fromCol, last.toCol),
                  RestoredCapture(g2[last.fromRow][last.fromCol]))
        else g2;
      (true, b.(pieces := g3, history := popped))
  }

  /** Undo is the inverse of updateBoard on the pieces and the history
      whenever the move went to an empty square from an occupied, different
      one and, for a two-row move, jumped an opposing piece. The turn flag
      and the game state are not restored. */
  lemma UndoReversesUpdate(b: Board, fr: Index, fc: Index, tr: Index, tc: Index)
    requires (fr, fc) != (tr, tc)
    requires b.pieces[fr][fc] != Empty && b.pieces[tr][tc] == Empty
    requires Abs(tr - fr) == 2 ==> Opposes(b.pieces[fr][fc], b.pieces[Mid(fr, tr)][Mid(fc, tc)])
    ensures var after := UpdateBoard(b, fr, fc, tr, tc, true).board;
      UndoLastMove(after) == (true, b.(whiteTurn := after.whiteTurn, state := after.state))
  {
    var after := UpdateBoard(b, fr, fc, tr, tc, true).board;
    var undone := UndoLastMove(after).1;
    assert after.history[..|after.history| - 1] == b.history;
    forall i: Index, j: Index
      ensures undone.pieces[i][j] == b.pieces[i][j]
    {
    }
    GridExtensionality(undone.pieces, b.pieces);
  }

  /** Undo after a valid make_move gives back the pieces and the history. */
  lemma UndoReversesMakeMove(b: Board, fr: int, fc: int, tr: int, tc: int)
    requires ValidMove(b.pieces, fr, fc, tr, tc)
    ensures var after := MakeMove(b, fr, fc, tr, tc, true).board;
      UndoLastMove(after).1.pieces == b.pieces && UndoLastMove(after).1.history == b.history
  {
    UndoReversesUpdate(b, fr, fc, tr, tc);
  }

  /** After a valid move whose save fails, the pieces are rolled back but
      the history record stays, so an undo copies the (empty) destination
      over the source: the moved piece disappears from the board. */
  lemma UndoAfterFailedSaveLosesPiece(b: Board, fr: int, fc: int, tr: int, tc: int)
    requires ValidMove(b.pieces, fr, fc, tr, tc)
    ensures var after := MakeMove(b, fr, fc, tr, tc, false).board;
      && after.pieces == b.pieces
      && UndoLastMove(after).1.pieces[fr][fc] == Empty
      && b.pieces[fr][fc] != Empty
  {
  }
}

=== FILE: rules.dfy ===
/** The legality rules of checkers.cpp: `canCapture`, `valid_move` with its
    mandatory-capture scan, `checkmate` and `updateGameState`. */
module Rules {
  import opened Checkers

  function Abs(x: int): nat {
    if x < 0 then -x else x
  }

  /** The colour pairs the capture tests accept: a black piece over a white
      one, or a white piece over a black one. */
  predicate Opposes(mover: Piece, jumped: Piece) {
    (mover == Black && jumped == White) || (mover == White && jumped == Black)
  }

  /** The piece type whose turn the flag names. */
  function Mover(whiteTurn: bool): Piece {
    if whiteTurn then White else Black
  }

  /** The grid holds at least one piece of type `t`. */
  predicate Contains(g: Grid, t: Piece) {
    exists i: Index, j: Index :: g[i][j] == t
  }

  /** One iteration of canCapture's direction loop: the landing square
      (r + dr, c + dc) is on the board and empty, and the square halfway
      holds the opposite colour. */
  predicate JumpOpen(g: Grid, r: Index, c: Index, dr: int, dc: int)
    requires Abs(dr) == 2 && Abs(dc) == 2
  {
    IsValidPosition(r + dr, c + dc)
    && g[r + dr][c + dc] == Empty
    && Opposes(g[r][c], g[r + dr / 2][c + dc / 2])
  }

  /** canCapture(row, col): the piece at (row, col) can jump in one of the
      four diagonal directions. Read-only. */
  predicate CanCapture(g: Grid, r: int, c: int)
  {
    if !IsValidPosition(r, c) then false
    else if g[r][c] == Empty then false
    else (JumpOpen(g, r, c, 2, 2) || JumpOpen(g, r, c, 2, -2)
      || JumpOpen(g, r, c, -2, 2) || JumpOpen(g, r, c, -2, -2))
  }

  /** A capture described by its landing square (lr, lc) instead of by a
      direction: on the board, two rows and two columns away, empty, with
      an opposing piece on the square between. */
  predicate LandingOpen(g: Grid, r: Index, c: Index, lr: Index, lc: Index) {
    Abs(lr - r) == 2 && Abs(lc - c) == 2
    && g[lr][lc] == Empty && Opposes(g[r][c], g[(r + lr) / 2][(c + lc) / 2])
  }

  /** canCapture agrees with the direction-free description: the square is
      on the board, occupied, and has some open landing square. */
  lemma CanCaptureIffLanding(g: Grid, r: int, c: int)
    ensures CanCapture(g, r, c) <==>
      IsValidPosition(r, c) && g[r][c] != Empty &&
      exists lr: Index, lc: Index :: LandingOpen(g, r, c, lr, lc)
  {
    if IsValidPosition(r, c) && g[r][c] != Empty {
      if JumpOpen(g, r, c, 2, 2) {
        assert LandingOpen(g, r, c, r + 2, c + 2);
      } else if JumpOpen(g, r, c, 2, -2) {
        assert LandingOpen(g, r, c, r + 2, c - 2);
      } else if JumpOpen(g, r, c, -2, 2) {
        assert LandingOpen(g, r, c, r - 2, c + 2);
      } else if JumpOpen(g, r, c, -2, -2) {
        assert LandingOpen(g, r, c, r - 2, c - 2);
      }
      if exists lr: Index, lc: Index :: LandingOpen(g, r, c, lr, lc) {
        var lr: Index, lc: Index :| LandingOpen(g, r, c, lr, lc);
        assert JumpOpen(g, r, c, lr - r, lc - c);
      }
    }
  }

  /** The mandatory-capture condition of valid_move: some piece of type `t`
      can capture. */
  predicate HasCapture(g: Grid, t: Piece) {
    exists i: Index, j: Index :: g[i][j] == t && CanCapture(g, i, j)
  }

  /** Reads a square, or gives Empty off the board. Used only on the jump
      branch of valid_move, which no input reaches. */
  function PieceAt(g: Grid, r: int, c: int): Piece {
    if IsValidPosition(r, c) then g[r][c] else Empty
  }

  /** Writes a square, or leaves the grid alone off the board. Used only on
      the jump branch of valid_move, which no input reaches. */
  function SetTypeAt(g: Grid, r: int, c: int, p: Piece): Grid {
    if IsValidPosition(r, c) then SetType(g, r, c, p) else g
  }

  /** The square halfway between two squares, rounded down. The operands
      are never negative, so C++ truncation and Dafny's floor agree. */
  function Mid(a: int, b: int): (m: int)
    ensures 0 <= a < Size && 0 <= b < Size ==> 0 <= m < Size && (a <= m <= b || b <= m <= a)
  {
    (a + b) / 2
  }

  /** valid_move, branch for branch, together with the grid it leaves
      behind: its jump branch would clear the jumped square. The ensures
      shows that branch is dead, because every move that reaches it has
      already been rejected unless it is a single diagonal step, so the
      test leaves `pieces` alone. */
  function ValidMoveEffect(g: Grid, fr: int, fc: int, tr: int, tc: int): (res: (bool, Grid))
    ensures res.1 == g
  {
    if fr < 0 || fr >= Size || fc < 0 || fc >= Size ||
       tr < 0 || tr >= Size || tc < 0 || tc >= Size then (false, g)
    else
      var mover := g[fr][fc];
      if mover == Empty then (false, g)
      else if g[tr][tc] != Empty then (false, g)
      else if Abs(tr - fr) != 1 || Abs(tc - fc) != 1 then (false, g)
      else if mover == Black && tr <= fr then (false, g)
      else if mover == White && tr >= fr then (false, g)
      else if Colour(tr, tc) != 0 then (false, g)
      else
        var rowDiff := Abs(tr - fr);
        var colDiff := Abs(tc - fc);
        if rowDiff == 2 && colDiff == 2 then
          var midRow := Mid(fr, tr);
          var midCol := Mid(fc, tc);
          if Opposes(mover, PieceAt(g, midRow, midCol))
          then (true, SetTypeAt(g, midRow, midCol, Empty))
          else (false, g)
        else if HasCapture(g, mover) && Abs(tr - fr) != 2 then (false, g)
        else (rowDiff == 1 && colDiff == 1, g)
  }

  /** A simple move in the code's sense: one diagonal step, forward for the
      piece's colour, from an occupied square to an empty square whose
      pattern value is 0. */
  predicate SimpleStep(g: Grid, fr: int, fc: int, tr: int, tc: int) {
    && IsValidPosition(fr, fc) && IsValidPosition(tr, tc)
    && g[fr][fc] != Empty && g[tr][tc] == Empty
    && Abs(tr - fr) == 1 && Abs(tc - fc) == 1
    && (g[fr][fc] == Black ==> tr > fr)
    && (g[fr][fc] == White ==> tr < fr)
    && Colour(tr, tc) == 0
  }

  /** valid_move's verdict: a simple step, and no piece of the mover's type
      has a capture available. A two-square jump is never accepted. */
  predicate ValidMove(g: Grid, fr: int, fc: int, tr: int, tc: int)
    ensures ValidMove(g, fr, fc, tr, tc) <==>
      SimpleStep(g, fr, fc, tr, tc) && !HasCapture(g, g[fr][fc])
  {
    ValidMoveEffect(g, fr, fc, tr, tc).0
  }

  /** The nested scan of valid_move, line for line: it stops at the first
      piece of type `t` that can capture. */
  method ScanForCapture(g: Grid, t: Piece) returns (hasCapture: bool)
    ensures hasCapture <==> HasCapture(g, t)
  {
    hasCapture := false;
    var i := 0;
    while i < Size
      invariant 0 <= i <= Size
      invariant !hasCapture ==> forall a: Index, b: Index :: a < i ==> !(g[a][b] == t && CanCapture(g, a, b))
      invariant hasCapture ==> HasCapture(g, t)
    {
      var j := 0;
      while j < Size
        invariant 0 <= j <= Size
        invariant !hasCapture ==> forall b: Index :: b < j ==> !(g[i][b] == t && CanCapture(g, i, b))
        invariant hasCapture ==> HasCapture(g, t)
      {
        if g[i][j] == t && CanCapture(g, i, j) {
          hasCapture := true;
          break;
        }
        j := j + 1;
      }
      if hasCapture {
        break;
      }
      i := i + 1;
    }
  }

  /** checkmate(): the scan stops as soon as both colours have been seen;
      otherwise at least one colour is missing from the grid. */
  method Checkmate(g: Grid) returns (over: bool)
    ensures over <==> !Contains(g, White) || !Contains(g, Black)
  {
    var foundWhite := false;
    var foundBlack := false;
    for i := 0 to Size
      invariant foundWhite <==> exists a: Index, b: Index :: a < i && g[a][b] == White
      invariant foundBlack <==> exists a: Index, b: Index :: a < i && g[a][b] == Black
      invariant !(foundWhite && foundBlack)
    {
      for j := 0 to Size
        invariant foundWhite <==> exists a: Index, b: Index :: (a < i || (a == i && b < j)) && g[a][b] == White
        invariant foundBlack <==> exists a: Index, b: Index :: (a < i || (a == i && b < j)) && g[a][b] == Black
        invariant !(foundWhite && foundBlack)
      {
        if g[i][j] == White {
          foundWhite := true;
        }
        if g[i][j] == Black {
          foundBlack := true;
        }
        if foundWhite && foundBlack {
          return false;
        }
      }
    }
    return !foundWhite || !foundBlack;
  }

  /** The stalemate scan of updateGameState: some piece of type `t` has a
      valid_move to a square at most two rows and two columns away. */
  predicate HasValidMoves(g: Grid, t: Piece) {
    exists i: Index, j: Index, tr: int, tc: int ::
      i - 2 <= tr <= i + 2 && j - 2 <= tc <= j + 2 && g[i][j] == t && ValidMove(g, i, j, tr, tc)
  }

  /** updateGameState(), evaluated with the turn flag as it stands. */
  function UpdateGameState(g: Grid, whiteTurn: bool): (s: GameState)
    ensures s == BlackWin <==> !Contains(g, White)
    ensures s == WhiteWin <==> Contains(g, White) && !Contains(g, Black)
    ensures s == Draw <==> Contains(g, White) && Contains(g, Black) && !HasValidMoves(g, Mover(whiteTurn))
    ensures s == Ongoing <==> Contains(g, White) && Contains(g, Black) && HasValidMoves(g, Mover(whiteTurn))
  {
    if !Contains(g, White) || !Contains(g, Black) then
      if !Contains(g, White) then BlackWin
      else if !Contains(g, Black) then WhiteWin
      else Draw
    else if !HasValidMoves(g, Mover(whiteTurn)) then Draw
    else Ongoing
  }

  /** The row one step forward for a piece of type `t`: down the board for
      black, up for white. */
  function Ahead(t: Piece, r: int): int {
    if t == Black then r + 1 else r - 1
  }

  /** The piece at (r, c) can step forward diagonally onto column `tc`: the
      square is on the board, empty, and of pattern value 0. */
  predicate StepOpen(g: Grid, r: Index, c: Index, tc: Index) {
    var tr := Ahead(g[r][c], r);
    Abs(tc - c) == 1 && 0 <= tr < Size && g[tr][tc] == Empty && Colour(tr, tc) == 0
  }

  /** Some piece of type `t` has an open forward step. */
  predicate CanStep(g: Grid, t: Piece) {
    exists i: Index, j: Index, tc: Index :: g[i][j] == t && StepOpen(g, i, j, tc)
  }

  /** The stalemate scan accepts exactly when no capture is pending for the
      side and one of its pieces has an open forward step. */
  lemma HasValidMovesIffStep(g: Grid, t: Piece)
    requires t != Empty
    ensures HasValidMoves(g, t) <==> !HasCapture(g, t) && CanStep(g, t)
  {
    if HasValidMoves(g, t) {
      var i: Index, j: Index, tr: int, tc: int :|
        i - 2 <= tr <= i + 2 && j - 2 <= tc <= j + 2 && g[i][j] == t && ValidMove(g, i, j, tr, tc);
      assert tr == Ahead(t, i);
      assert StepOpen(g, i, j, tc);
    }
    if !HasCapture(g, t) && CanStep(g, t) {
      var i: Index, j: Index, tc: Index :| g[i][j] == t && StepOpen(g, i, j, tc);
      var tr := Ahead(t, i);
      assert SimpleStep(g, i, j, tr, tc);
      assert ValidMove(g, i, j, tr, tc);
    }
  }

  /** updateGameState judges DRAW exactly when both colours are on the board
      and the side named by the turn flag either has a capture pending
      (valid_move then refuses every move) or has no open forward step. */
  lemma DrawIffStuck(g: Grid, whiteTurn: bool)
    ensures UpdateGameState(g, whiteTurn) == Draw <==>
      Contains(g, White) && Contains(g, Black) &&
      (HasCapture(g, Mover(whiteTurn)) || !CanStep(g, Mover(whiteTurn)))
  {
    HasValidMovesIffStep(g, Mover(whiteTurn));
  }
}

=== FILE: strtol.dfy ===
/** `std::stoi` as the board codec (base 10) and the form decoder (base 16)
    use it: it skips leading white space, takes an optional sign, in base 16
    an optional "0x"/"0X" prefix, then the longest run of digits, and
    ignores whatever follows. No digits is `std::invalid_argument`; a value
    that does not fit a 32-bit `int` is `std::out_of_range`. */
module Strtol {
  import opened Wrappers

  const IntMin: int := -0x8000_0000
  const IntMax: int := 0x7FFF_FFFF

  datatype StoiError = NoConversion | OutOfRange

  /** isspace in the C locale: space, tab, line feed, vertical tab, form
      feed, carriage return. */
  predicate IsSpace(c: char) {
    c == ' ' || 9 <= c as int <= 13
  }

  /** The digit value of a character in bases up to 36; 36 for anything
      that is not a digit in any of them. */
  function DigitValue(c: char): (d: nat)
    ensures d <= 36
  {
    if '0' <= c <= '9' then c as int - '0' as int
    else if 'a' <= c <= 'z' then c as int - 'a' as int + 10
    else if 'A' <= c <= 'Z' then c as int - 'A' as int + 10
    else 36
  }

  /** The length of the leading run of digits of `base`. */
  function DigitRun(s: string, base: nat): (n: nat)
    ensures n <= |s|
    ensures forall i :: 0 <= i < n ==> DigitValue(s[i]) < base
    ensures n < |s| ==> DigitValue(s[n]) >= base
  {
    if |s| > 0 && DigitValue(s[0]) < base then 1 + DigitRun(s[1..], base) else 0
  }

  /** The value of a digit string, most significant digit first. */
  function DigitsValue(ds: string, base: nat): nat {
    if |ds| == 0 then 0 else DigitsValue(ds[..|ds| - 1], base) * base + DigitValue(ds[|ds| - 1])
  }

  /** The text after an optional leading sign. */
  function SkipSign(t: string): string {
    if |t| > 0 && (t[0] == '+' || t[0] == '-') then t[1..] else t
  }

  /** In base 16, the text after a "0x" or "0X" prefix, which is skipped
      only when a hex digit follows it (otherwise the "0" alone is read). */
  function SkipHexPrefix(u: string, base: nat): string {
    if base == 16 && |u| >= 3 && u[0] == '0' && (u[1] == 'x' || u[1] == 'X') && DigitValue(u[2]) < 16
    then u[2..] else u
  }

  /** The value of the leading digit run, or None when there is none. */
  function ReadDigits(v: string, base: nat): Option<nat> {
    var n := DigitRun(v, base);
    if n == 0 then None else Some(DigitsValue(v[..n], base))
  }

  /** The integer strtol reads from the front of `s`, or None when there is
      no digit to read: leading white space is skipped, then an optional
      sign is read. */
  function LeadingInteger(s: string, base: nat): Option<int>
    requires base == 10 || base == 16
    decreases |s|
  {
    if |s| > 0 && IsSpace(s[0]) then LeadingInteger(s[1..], base)
    else
      match ReadDigits(SkipHexPrefix(SkipSign(s), base), base)
      case None => None
      case Some(m) =>
        var value: int := if |s| > 0 && s[0] == '-' then 0 - m as int else m;
        Some(value)
  }

  /** std::stoi(s, nullptr, base). */
  function Stoi(s: string, base: nat): (r: Result<int, StoiError>)
    requires base == 10 || base == 16
    ensures r.Success? ==> IntMin <= r.value <= IntMax
    ensures r == Failure(NoConversion) <==> LeadingInteger(s, base).None?
  {
    match LeadingInteger(s, base)
    case None => Failure(NoConversion)
    case Some(n) => if n < IntMin || n > IntMax then Failure(OutOfRange) else Success(n)
  }

  /** The decimal digit character for 0..9. */
  function DecimalDigit(d: nat): char
    requires d < 10
  {
    ('0' as int + d) as char
  }

  /** The decimal text of a non-negative number, as the page's option
      labels write it: its digits, most significant first, without
      leading zeros. */
  function Decimal(n: nat): (s: string)
    ensures |s| > 0
    ensures forall i :: 0 <= i < |s| ==> DigitValue(s[i]) < 10 && '0' <= s[i] <= '9'
  {
    if n < 10 then [DecimalDigit(n)] else Decimal(n / 10) + [DecimalDigit(n % 10)]
  }

  lemma {:induction false} DecimalValue(n: nat)
    ensures DigitsValue(Decimal(n), 10) == n
  {
    var s := Decimal(n);
    if n >= 10 {
      assert s[..|s| - 1] == Decimal(n / 10);
      DecimalValue(n / 10);
    }
  }

  /** A string that starts with a digit (and, in base 16, not with a "0x"
      prefix followed by a hex digit) is read from its first character. */
  lemma ReadsFromFirstDigit(s: string, base: nat)
    requires base == 10 || base == 16
    requires |s| > 0 && '0' <= s[0] <= '9'
    requires base == 16 && |s| >= 3 && s[0] == '0' ==> s[1] != 'x' && s[1] != 'X'
    ensures LeadingInteger(s, base) == Some(DigitsValue(s[..DigitRun(s, base)], base))
  {
    assert !IsSpace(s[0]);
    assert SkipSign(s) == s;
    assert SkipHexPrefix(s, base) == s;
    assert DigitRun(s, base) > 0;
  }

  /** stoi reads back the decimal text of every non-negative int. */
  lemma DecimalRoundTrip(n: nat)
    requires n <= IntMax
    ensures Stoi(Decimal(n), 10) == Success(n)
  {
    var s := Decimal(n);
    ReadsFromFirstDigit(s, 10);
    assert DigitRun(s, 10) == |s|;
    assert s[..|s|] == s;
    DecimalValue(n);
  }

  /** A token stoi accepts although it is not a plain number: the trailing
      characters are ignored. */
  lemma TrailingCharactersIgnored()
    ensures Stoi("1x", 10) == Success(1)
  {
    var s := "1x";
    ReadsFromFirstDigit(s, 10);
    assert s[1..] == "x";
    assert DigitValue('x') == 33;
    assert DigitRun("x", 10) == 0;
    assert DigitRun(s, 10) == 1;
    assert s[..1] == "1";
    assert DigitsValue("1", 10) == 1;
  }

  /** Leading white space is skipped before the digits. */
  lemma LeadingSpaceSkipped()
    ensures Stoi(" 2", 10) == Success(2)
  {
    var t := " 2";
    assert IsSpace(t[0]) && !IsSpace(t[1]);
    ReadsFromFirstDigit("2", 10);
    assert DigitRun("2", 10) == 1;
    assert "2"[..1] == "2";
    assert DigitsValue("2", 10) == 2;
  }

  /** The upper-case hexadecimal digit for 0..15. */
  function HexDigit(d: nat): (c: char)
    requires d < 16
    ensures DigitValue(c) == d
  {
    if d < 10 then ('0' as int + d) as char else ('A' as int + d - 10) as char
  }

  /** A byte value written as two upper-case hexadecimal digits. */
  function HexPair(v: nat): (s: string)
    requires v < 256
    ensures |s| == 2
  {
    [HexDigit(v / 16), HexDigit(v % 16)]
  }

  /** stoi in base 16 reads back the byte a two-digit escape writes. */
  lemma HexPairRoundTrip(v: nat)
    requires v < 256
    ensures Stoi(HexPair(v), 16) == Success(v)
  {
    var s := HexPair(v);
    assert !IsSpace(s[0]) && s[0] != '+' && s[0] != '-';
    assert SkipSign(s) == s;
    assert SkipHexPrefix(s, 16) == s;
    assert DigitRun(s, 16) == 2;
    assert s[..2] == s;
    assert s[..1] == [s[0]];
    assert DigitsValue(s[..1], 16) == v / 16;
  }
}

=== FILE: wrappers.dfy ===
/** Failure-compatible result types shared by the board engine, the board
    codec and the CGI helpers. A C++ `throw` of the modelled code becomes a
    `Failure` carrying the reason; `:-` propagates it the way the exception
    propagates to the nearest `catch`. */
module Wrappers {

  datatype Option<+T> = None | Some(value: T)

  datatype Result<+R, +E> = Success(value: R) | Failure(error: E) {

    predicate IsFailure() {
      Failure?
    }

    function PropagateFailure<U>(): Result<U, E>
      requires Failure?
    {
      Failure(error)
    }

    function Extract(): R
      requires Success?
    {
      value
    }
  }
}
